=== FILE: README.md ===
# Regime–horizon map, modelled in Dafny

The regime–horizon map turns a daily price history into one chart. The chart
has one horizontal band per rolling-window horizon (5, 20 and 60 trading days
by default). The pipeline has four stages:

1. **Log returns** (`compute_log_returns`): check that the `Date` and `Close`
   columns exist, then take differences of consecutive log closes. Each
   return is dated by its later row.
2. **Rolling features** (`rolling_features`): for a horizon `h`, compute the
   trailing mean `mu` and the trailing sample standard deviation `vol` (ddof=1)
   of the last `h` returns. Positions without a full window are dropped.
3. **Regime labels** (`infer_regime`): take one threshold, the median of the
   whole `vol` column. A row at or above it is labelled 0 (high uncertainty).
   Otherwise it is labelled +1 or -1 by the sign of the drift; zero counts as
   positive.
4. **Rendering** (`plot_regime_horizon_map`), without matplotlib:
   - Panels are sorted, stably, by the horizon parsed from their label
     "`<h>D`". Unparsable labels get the sentinel key 10**9, so they follow
     every horizon below 10**9, in input order; a horizon of exactly 10**9
     ties with them and one above it sorts after them.
   - `|mu|` and `vol` are normalised per panel by their maximum plus 1e-12.
   - Each segment between consecutive dates gets a colour from its regime,
     an opacity from base + gain × uncertainty clipped to [0.05, 0.95], and a
     height `rank + sign(mu) · mag · 0.85`.
   - Transition markers are chosen greedily: only at regime changes that
     enter or leave regime 0, and at least a per-label minimum distance apart.
   - The y ticks read "`<h>-Day Horizon`", and the y axis spans
     [-0.8, n - 1 + 0.9].

The driver in `main.py` ties the stages together. It builds one panel per
configured horizon, then renders them.

Some things the model cannot compute are passed in as parameters:

- The natural logarithm and the square root are function parameters (`ln`,
  `sqrt`). Where a property needs the square root to be non-negative, it
  states that as a hypothesis (`Features.NonNegSqrt`).
- Dates are integers, since only their order and equality matter here.
- Arithmetic is on exact reals.
- Each Python exception becomes an `Err` of `Results.Result`.

Modules, one per file:

- `Results`: the Result, Option and Error types.
- `Stats`: sum, mean, sample variance, maximum, sorting and median.
- `Features`: `src/features.py`.
- `Regime`: `src/regime.py`.
- `HorizonLabels`: label printing in `main.py`, and label parsing and
  stripping in `src/plot.py`.
- `Panels`: the per-horizon panel record.
- `PanelOrder`: the panel sort.
- `Encoding`: normalisation, colour, opacity and height.
- `Markers`: transition markers.
- `Render`: the whole chart.
- `Assembly`: `main.py`.

Some facts about the code that are easy to get wrong:

- **Missing data does not raise.** An empty price table, a horizon longer
  than the history and an empty feature frame all give empty results. None
  of them raises.
- **h = 1 drops everything.** The ddof=1 standard deviation of one sample is
  NaN, so `dropna` leaves an empty frame. Rendering such a panel then fails,
  because `np.nanmax` of an empty series raises.
- **Normalised values stay below 1.** Normalised magnitudes and
  uncertainties lie in [0, 1). Even the maximum maps to max/(max + 1e-12),
  not to 1 (`Encoding.MagnitudePeak`).
- **Neighbouring bands can overlap.** A rising band and a falling band one
  rank above it overlap (`Encoding.NeighbouringBandsMayOverlap`). What does
  hold is that no band reaches a neighbouring baseline.
- **The lowest band can be clipped.** Its drawing can reach about -0.85,
  below the axis limit of -0.8 (`Encoding.LowestBandMayLeaveAxis`).

## Model

| member | source | states |
|---|---|---|
| Features.LogReturns | src/features.py:4-13 | A missing `Date` column is reported before a missing `Close` column, and the result is an error exactly when one of them is missing. Otherwise n rows give n - 1 returns (none for an empty table). Return k is ln(close[k+1]) - ln(close[k]), dated by row k+1. |
| Features.LogDiffsTelescope | src/features.py:10-11 | The log differences of a close series add up to ln(last close) - ln(first close). |
| Features.LogReturnsTelescope | src/features.py:10-13 | For a non-empty table, the returns add up to the log of the total price ratio, ln(last) - ln(first). |
| Stats.SampleVariance | src/features.py:17 | The ddof=1 sample variance of two or more values is non-negative. |
| Features.RollingFeatures | src/features.py:15-19 | A window below 1 is rejected with InvalidWindow(h), and only such a window is rejected. h = 1, or fewer than h returns, gives an empty frame. Otherwise there is one row per position i >= h-1, dated like return i, holding the mean and sqrt(sample variance) of returns i-h+1..i. |
| Features.VolNonNegative | src/features.py:17-18 | If the square root is non-negative on non-negative numbers, every `vol` in the feature frame is non-negative. |
| Features.RollingMeans | src/features.py:16 | A running window sum (add the entering return, remove the leaving one) yields, at every position, exactly the mean of that position's trailing window. This holds from h = 1 on. |
| Stats.Median | src/regime.py:10 | The median of a non-empty column has at least half of the values at or above it and at least half at or below it. It lies between two values of the column. |
| Stats.Max | src/plot.py:35-36 | `np.nanmax` of a non-empty series: it is at least every element and equal to one of them. It has no value for an empty series, which is why an empty panel cannot be drawn. |
| Regime.InferRegime | src/regime.py:10-17 | One label per feature row, each in {-1, 0, 1}. Label 0 exactly when vol >= the median vol. Label 1 exactly when vol is below it and mu >= 0. Label -1 exactly when vol is below it and mu < 0. |
| Regime.Label | src/regime.py:11-16 | The label of one row is -1, 0 or 1. It is 0 exactly when vol is at or above the threshold; otherwise it is 1 exactly when mu >= 0. |
| Regime.VolThreshold | src/regime.py:10 | Definition without a contract: the median of the frame's volatilities, `features["vol"].median()`. Stats.Median states its counting property, and AtLeastHalfUncertain, ConstantVolAllUncertain and PeakVolUncertain state what it means for the labels. |
| Regime.AtLeastHalfUncertain | src/regime.py:10-14 | At least half of the rows of any frame are labelled 0 (high uncertainty). |
| Regime.ConstantVolAllUncertain | src/regime.py:10-14 | If every row has the same volatility, every row is labelled 0, whatever its drift. |
| Regime.PeakVolUncertain | src/regime.py:10-14 | The row with the largest volatility is always labelled 0. |
| HorizonLabels.TrimStart | src/plot.py:58 | Stripping the front leaves a suffix of the label. Everything removed is whitespace, and the rest does not start with whitespace. |
| HorizonLabels.TrimEnd | src/plot.py:58 | Stripping the back leaves a prefix. Everything removed is whitespace, and the rest does not end with whitespace. |
| HorizonLabels.Strip | src/plot.py:58 | A stripped label is no longer than the label, and neither starts nor ends with whitespace. |
| HorizonLabels.StripSlice | src/plot.py:58 | Stripping removes only the surrounding whitespace: the result is a contiguous slice of the label with nothing but whitespace before and after it. |
| HorizonLabels.StripUnchanged | src/plot.py:58 | A label that neither starts nor ends with whitespace is unchanged by stripping. |
| HorizonLabels.NatToString | main.py:22 | The decimal text of h is non-empty, all digits, has no leading zero unless h = 0, and reads back as h. |
| HorizonLabels.HorizonLabel | main.py:22 | Definition without a contract: the label `f"{h}D"`, the decimal text of h followed by "D". HorizonLabelRoundTrip and HorizonLabelInjective state its properties. |
| HorizonLabels.DigitsValue | src/plot.py:18 | Definition without a contract: `int()` of a string of ASCII digits, leading zeros allowed. NatToString, DigitsRoundTrip, DigitsValueAtLeastLead and DigitsValueLeadingZero state its properties. |
| HorizonLabels.DigitsRoundTrip | src/plot.py:18 | A digit string without a leading zero is exactly the decimal text of its value, as `int()` then f-string formatting would give. |
| HorizonLabels.HorizonLabelRoundTrip | main.py:22 | A label "{h}D" built by the driver is unchanged by strip, parses back to h, sorts by h and expands to "h-Day Horizon". |
| HorizonLabels.ParsedLabelIsHorizonLabel | src/plot.py:18 | Conversely, a label that parses to n and has no leading zero is, once stripped, the driver's label for n. |
| HorizonLabels.HorizonLabelInjective | main.py:22 | Distinct horizons get distinct labels. |
| HorizonLabels.MinGap | src/plot.py:57-59 | The marker spacing of any label is between 10 and 30 points. |
| HorizonLabels.ParseHorizon | src/plot.py:18 | Definition without a contract: the stripped label ends in "D" after at least one ASCII digit, and the number is `int()` of those digits. Its properties are stated by HorizonLabelRoundTrip, ParsedLabelIsHorizonLabel, DigitsLabel and ExpandKeepsLeadingZeros. |
| HorizonLabels.SortKey | src/plot.py:18 | The sort key is non-negative. It equals 10**9 exactly when the label does not parse or parses to 10**9 itself; any other key is the parsed horizon. |
| HorizonLabels.HorizonGaps | src/plot.py:57-59 | For the driver's labels: horizon 5 gets spacing 10, 20 gets 20, 60 gets 30, and every other horizon gets 15. |
| HorizonLabels.ExpandLabel | src/plot.py:92-98 | The y-tick text is never empty. For a parsed label it is the stripped label's digits, exactly as written, followed by "-Day Horizon". An unparsable label is shown stripped, and an empty one is shown as "Horizon". |
| HorizonLabels.ExpandParsed | src/plot.py:94-96 | Any label that parses to n and has no leading zero, whitespace around it or not, has the tick text "n-Day Horizon". |
| HorizonLabels.DigitsValueLeadingZero | src/plot.py:18 | `int()` ignores a leading zero: "0" followed by digits has the same value as the digits. |
| HorizonLabels.DigitsLabel | src/plot.py:94-96 | Digits followed by "D" need no stripping, parse to the digits' value, and expand to the digits as written followed by "-Day Horizon". |
| HorizonLabels.ExpandKeepsLeadingZeros | src/plot.py:95-96 | A label "0" + "{n}D" sorts as horizon n, but its tick text keeps the zero: "0n-Day Horizon", never "n-Day Horizon". |
| PanelOrder.Order | src/plot.py:16-19 | The render order visits every input position exactly once. Sort keys never decrease along it, and positions with equal keys keep their input order (stability). |
| PanelOrder.SortPanels | src/plot.py:16-19 | The sorted panels are a rearrangement of the input: each sorted panel is the input panel at Order's position, and every input panel appears. Keys are non-decreasing. |
| PanelOrder.SmallerKeyEarlier | src/plot.py:16-19 | An input panel with a strictly smaller sort key is drawn at an earlier render position than one with a larger key. |
| PanelOrder.ParsedBeforeUnparsed | src/plot.py:18 | An input panel whose label parses to a horizon below 10**9 is drawn before every input panel whose label does not parse. |
| PanelOrder.EqualKeysKeepInputOrder | src/plot.py:16-19 | Of two input panels with equal sort keys, the earlier one in the input is drawn first. |
| PanelOrder.HugeHorizonNotFirst | src/plot.py:18 | An input panel whose label parses to more than 10**9 is drawn after every panel whose label does not parse, because the sentinel is an ordinary key. |
| Encoding.Magnitudes | src/plot.py:35 | Each magnitude is the absolute drift divided by the panel's own peak absolute drift plus 1e-12. So every magnitude lies in [0, 1), and the normalisation preserves the order of the absolute drifts in both directions. |
| Encoding.MagnitudePeak | src/plot.py:35 | Some drift attains the largest magnitude, and that magnitude is max/(max + 1e-12), not 1. |
| Encoding.UncScale | src/plot.py:36 | The normaliser `np.nanmax(vol) + 1e-12` lies 1e-12 above every volatility and exactly 1e-12 above one of them. |
| Encoding.Uncertainties | src/plot.py:36 | Each uncertainty is the volatility divided by the panel's own normaliser, max(vol) + 1e-12 (UncScale). For non-negative volatilities every uncertainty lies in [0, 1). With a positive normaliser, the order of the volatilities is preserved in both directions. |
| Encoding.ColorOf | src/plot.py:41 | The colour is green exactly for regime 1 and red exactly for regime -1. Every other value, 0 included, is grey. |
| Encoding.BaseAlpha | src/plot.py:42 | Definition without a contract: `BASE_ALPHA.get(r, 0.12)` over the table at line 22, 0.30 for +1 and -1, 0.10 for 0, 0.12 for any other value. SegmentAlpha, AlphaUnclippedOnUnitRange and DirectionalMoreOpaque state its consequences. |
| Encoding.AlphaGain | src/plot.py:42 | Definition without a contract: `ALPHA_GAIN.get(r, 0.30)` over the table at line 23, 0.60 for +1 and -1, 0.25 for 0, 0.30 for any other value. AlphaMonotone relies on every gain being positive, and DirectionalMoreOpaque compares them. |
| Encoding.Clip | src/plot.py:43 | `np.clip` to [lo, hi]: the result lies in [lo, hi]. A value already inside is unchanged, a value below lo gives lo, and a value above hi gives hi. |
| Encoding.SegmentAlpha | src/plot.py:42-43 | Every segment opacity lies in [0.05, 0.95], for any regime value and any uncertainty. |
| Encoding.AlphaMonotone | src/plot.py:42-43 | More uncertainty never makes a segment more transparent. |
| Encoding.AlphaUnclippedOnUnitRange | src/plot.py:42-43 | For uncertainties in [0, 1] the clip never applies, so the opacity is exactly base + gain × uncertainty. |
| Encoding.DirectionalMoreOpaque | src/plot.py:22-23 | At equal uncertainty in [0, 1], a +1 or -1 segment is strictly more opaque than a 0 segment, and +1 and -1 are equally opaque. |
| Encoding.SegmentTopWithinBand | src/plot.py:44 | With a magnitude in [0, 1], a band edge stays within 0.85 of its baseline, on the side of the drift's sign. It never reaches a neighbouring baseline. |
| Encoding.SegmentTop | src/plot.py:44 | The band edge sits on the baseline for a zero drift. Otherwise its distance from the baseline is the magnitude times 0.85, above the baseline for a rising drift and below it for a falling one. |
| Encoding.Sign | src/plot.py:44 | `np.sign` is -1, 0 or 1, is 0 exactly at 0, and sign(x) * x == abs(x). |
| Encoding.NeighbouringBandsMayOverlap | src/plot.py:44 | A rising band at rank 0 and a falling band at rank 1 overlap vertically. |
| Encoding.LowestBandMayLeaveAxis | src/plot.py:112 | At rank 0, a negative drift with magnitude above 0.95 draws below the axis limit of -0.8. |
| Encoding.Segments | src/plot.py:39-53 | An aligned panel with L dates has L - 1 segments. Segment k spans dates k to k+1 at the panel's baseline, and is styled by point k+1: its colour, its clipped opacity and its height. |
| Encoding.SegmentsStayInBand | src/plot.py:39-44 | With normalised magnitudes, every segment of a panel stays strictly between the neighbouring baselines. |
| Markers.ClearIffFarFromLast | src/plot.py:65-68 | Comparing a change to `last_mark` alone decides whether it is at least `gap` away from every earlier marker. |
| Markers.IsChange | src/plot.py:61 | Definition without a contract: `regime.ne(regime.shift(1))`, so index 0 is always a change, because the shifted value there is missing. GreedyComplete and TransitionMarkers state its consequence for index 0. |
| Markers.PrevLabel | src/plot.py:70 | Definition without a contract: `prev_r`, the previous label, or the label itself at index 0. TransitionMarkers states the eligibility it feeds. |
| Markers.Eligible | src/plot.py:70-74 | Definition without a contract: a change whose previous or new label is 0. GreedyMarkers requires every marker to be eligible, and TransitionMarkers shows the loop marks only such changes. |
| Markers.MarksFrom | src/plot.py:65-76 | Reference definition without a contract: the loop written as a recursive function of the index and `last_mark`. MarksFromStep relates one loop step to it, TransitionMarkers keeps it as its loop invariant, and GreedyRest proves that its output satisfies GreedyMarkers. |
| Markers.MarkStep | src/plot.py:73-76 | Drawing a marker at an eligible change that is clear of every earlier marker keeps the greedy characterisation for the indices visited so far. |
| Markers.SkipStep | src/plot.py:66-74 | Skipping an index that is not an eligible change clear of earlier markers keeps the greedy characterisation for the indices visited so far. |
| Markers.GreedyRest | src/plot.py:65-76 | Running the rest of the loop from any state that satisfies the greedy characterisation so far yields a marker list that satisfies it for the whole panel. |
| Markers.GreedyComplete | src/plot.py:61-76 | The greedy characterisation over all indices is GreedyMarkers. The markers strictly increase, and index 0, which is always a change, is marked exactly when its regime is 0. |
| Markers.TransitionMarkers | src/plot.py:55-76 | Every marker is a regime change that enters or leaves regime 0. Markers are at least the label's spacing apart and strictly increase. An index is marked exactly when it is such a change with no earlier marker within the spacing. Index 0 is marked exactly when its regime is 0. |
| Markers.GreedyMarkersUnique | src/plot.py:65-76 | At most one marker list satisfies GreedyMarkers for a given gap, so the greedy characterisation fixes the loop's output. |
| Render.DrawPanel | src/plot.py:29-87 | A panel's band has its segments and, when transitions are shown, the greedy markers with the dates at those indices; with transitions off it has no markers. Markers are at least the label's spacing apart. |
| Render.TickLabels | src/plot.py:92-99 | There is one tick text per panel: the expanded label of the panel at that rank. |
| Render.Drawable | src/plot.py:35-36 | Definition without a contract: a panel can be drawn when its drift and volatility series are non-empty (`np.nanmax` raises on an empty one) and its volatility normaliser max(vol) + 1e-12 is not zero (in exact arithmetic that happens only when the largest volatility is exactly -1e-12). NonNegativePanelDrawable, LongPanelDrawable and ShortPanelUndrawable state when assembled panels satisfy it. |
| Render.DrawAll | src/plot.py:29-36 | Drawing fails exactly when some panel is empty or has a zero volatility normaliser. Otherwise band i is panel i drawn at baseline i. |
| Render.SortedPanelsDrawable | src/plot.py:16-36 | Sorting neither hides nor introduces a panel that cannot be drawn. |
| Render.Render | src/plot.py:16-112 | The chart fails exactly when some input panel cannot be drawn. Otherwise it is the chart of the panels (ChartOf): band i is the i-th panel in sorted order at baseline i, drawn with its segments and greedy markers. Tick i sits at i and reads that panel's expanded label. The y axis spans [-0.8, n - 1 + 0.9]. |
| Assembly.PanelOf | main.py:21-27 | The panel of horizon h is labelled "{h}D". Its series are aligned, and its index, mu and vol are the feature frame's dates, means and volatilities. Its regime is infer_regime of that frame. |
| Assembly.PanelFor | main.py:18-27 | One loop iteration fails exactly when the horizon is below 1, with pandas' window error for that horizon. |
| Assembly.PanelForFeatures | main.py:19-27 | For a horizon of at least 1, the iteration succeeds with the panel bundled from that horizon's feature frame. |
| Assembly.FirstInvalid | main.py:18-19 | The position of the first horizon below 1, or the number of horizons when every horizon is at least 1. |
| Assembly.AssemblePanels | main.py:17-27 | Assembly fails exactly when some horizon is below 1, with the error of the first such horizon. Otherwise there is one panel per configured horizon. |
| Assembly.AssembledPanelIs | main.py:17-27 | When every horizon is at least 1, panel k of the assembly is the panel of the k-th configured horizon, in configuration order. |
| Assembly.AssembledPanelsAligned | main.py:21-27 | When every horizon is at least 1, assembly succeeds and every panel's series are aligned with its dates. |
| Assembly.AssembledPanel | main.py:18-27 | Each assembled panel's label parses back to its horizon, sorts by it and expands to "h-Day Horizon". It has |r| - h + 1 entries when h >= 2 and |r| >= h, and none otherwise. Entry t is dated like return t + h - 1. Its regimes are in {-1, 0, 1}. |
| Assembly.NonNegativePanelDrawable | src/plot.py:35-36 | A non-empty panel with non-negative volatilities can be drawn, and its uncertainties lie in [0, 1). |
| Assembly.LongPanelDrawable | main.py:19-27 | If the square root is non-negative on non-negative numbers and 2 <= h <= number of returns, the panel of horizon h can be drawn and its uncertainties lie in [0, 1). |
| Assembly.AssembledPanelsDrawable | main.py:18-29 | If the square root is non-negative on non-negative numbers and every horizon satisfies 2 <= h <= number of returns, assembly succeeds and every panel can be drawn with uncertainties in [0, 1). |
| Assembly.ShortPanelUndrawable | main.py:18-29 | A horizon of 1, or one longer than the return history, gives a panel the renderer cannot draw, so the whole chart fails. |
| Assembly.Run | main.py:15-29 | Errors surface in pipeline order. A missing column comes first, with its error. Next comes the first horizon below 1, with that horizon's window error. With valid horizons, the chart fails exactly when some assembled panel cannot be drawn. A successful chart is the chart of the assembled panels, with one band and one tick text per configured horizon, band i at rank i. |
| Assembly.BuildPanels | main.py:15-27 | Definition without a contract: the log returns followed by the panel assembly, with the first error passed through. Run's contract states the chart in terms of it. |

## Left out

- Loading prices (`src/data_loader.py`) is not part of this model: it does network and file I/O, and the model takes the price table as an input. The configuration (`src/config.py`) is a frozen record of constants and does no I/O; its `horizons` tuple becomes the `horizons` parameter, and its ticker, dates, cache directory, data source and figure path are not used by the model.
- Floating point is not modelled. NaN, infinities and rounding are absent, and `ln` and `sqrt` are uninterpreted parameters.
- Features.LogReturns: assumes every close has a finite, real logarithm. A missing, negative or NaN close at an interior row j has a NaN logarithm, so returns j-1 and j are both NaN and `dropna` removes both (src/features.py:11,13); a bad first or last close removes one. A zero close has logarithm -inf, so returns j-1 and j are -inf and +inf, and `dropna` keeps them. The model keeps all n - 1 returns as finite reals.
- Features.LogReturns: parsing of the `Date` column (`pd.to_datetime`) and the cast of `Close` to float are not modelled. Dates are integers.
- Features.RollingFeatures: treats h = 0 as an error, like negative windows. pandas versions differ on a zero window: some return all-NaN features, which `dropna` then empties.
- Stats.Median: the contract states the defining property of a median. It does not pin the even-count case to the average of the two middle values, although the function computes exactly that.
- Render.DrawAll: a panel whose volatility normaliser is exactly zero is reported as an error. numpy would divide and produce inf/NaN instead. This case cannot arise from the pipeline, because volatilities are non-negative and the normaliser is then at least 1e-12 (`Assembly.AssembledPanelsDrawable`).
- HorizonLabels.Strip: removes only space, tab, newline, carriage return, vertical tab and form feed. Python's `str.strip` also removes the separators \x1c-\x1f and Unicode whitespace.
- HorizonLabels.ParseHorizon: the digit test is ASCII-only. Python's `str.isdigit` also accepts other Unicode digits; superscript digits, for example, pass `isdigit`, and then `int()` raises.
- Matplotlib drawing is not modelled. This covers figure size, the `fill_between` and `plot` calls, tick half-height, titles, grid, legend, `tight_layout` and saving. The model keeps only the numbers that would be passed to matplotlib.
- The `transition_style` option ("lines" or "ticks") is not modelled. Both styles draw at the same chosen markers, which are modelled.
- The `annotate_shocks` COVID-19 annotation is not modelled. It is decoration, wrapped in a catch-all `try`, and it never affects the rest of the chart.
- Panels without a "label" key are not modelled; every panel has a name. The source reads a missing label as "", which the model covers as the empty name.
- The regime series of `infer_regime` is float in the source: it is created empty with `dtype=int`, which pandas stores as float NaN, and then filled with -1, 0 and 1. The renderer's `.astype(int)` is the identity on those values, so the model keeps the labels as integers throughout.
- The final `print` of the driver is not modelled.

=== FILE: assembly.dfy ===
/** The panel-assembly loop of main.py: for each configured horizon, the
    rolling features, their regime labels and the label "{h}D" are bundled
    into one panel; then the whole pipeline from a price table to a chart.
    Loading prices and saving the figure are not modelled. */
module Assembly {
  import opened Results
  import opened Stats
  import opened Features
  import opened Regime
  import opened HorizonLabels
  import opened Panels
  import opened Encoding
  import opened Render

  /** The dictionary main.py appends for horizon `h` and feature frame `f`:
      every series is indexed by the frame's dates. */
  function PanelOf(h: nat, f: seq<FeatureRow>): (p: Panel)
    ensures Aligned(p)
    ensures p.name == HorizonLabel(h)
    ensures |p.index| == |f|
    ensures forall t :: 0 <= t < |f| ==>
              p.index[t] == f[t].date && p.mu[t] == f[t].mu && p.vol[t] == f[t].vol
    ensures p.regime == InferRegime(f)
  {
    Panel(HorizonLabel(h),
          seq(|f|, t requires 0 <= t < |f| => f[t].date),
          seq(|f|, t requires 0 <= t < |f| => f[t].mu),
          seq(|f|, t requires 0 <= t < |f| => f[t].vol),
          InferRegime(f))
  }

  /** One iteration of the loop: the features of horizon `h` (an error for
      a window below 1) bundled into a panel. */
  function PanelFor(r: seq<Obs>, h: int, sqrt: real -> real): (res: Result<Panel>)
    ensures res.Err? <==> h < 1
    ensures res.Err? ==> res.error == InvalidWindow(h)
  {
    match RollingFeatures(r, h, sqrt)
    case Err(e) => Err(e)
    case Ok(f) => Ok(PanelOf(h, f))
  }

  /** The panel of a valid horizon is the bundle of its feature frame. */
  lemma PanelForFeatures(r: seq<Obs>, h: int, sqrt: real -> real)
    requires h >= 1
    ensures PanelFor(r, h, sqrt).Ok?
    ensures PanelFor(r, h, sqrt).value == PanelOf(h, RollingFeatures(r, h, sqrt).value)
  {
  }

  /** Position of the first horizon below 1, or the number of horizons
      when there is none. */
  function FirstInvalid(horizons: seq<int>): (k: nat)
    ensures k <= |horizons|
    ensures forall j :: 0 <= j < k ==> horizons[j] >= 1
    ensures k < |horizons| ==> horizons[k] < 1
    ensures k == |horizons| <==> forall j :: 0 <= j < |horizons| ==> horizons[j] >= 1
  {
    if |horizons| == 0 || horizons[0] < 1 then 0
    else
      var k := FirstInvalid(horizons[1..]);
      assert forall j :: 1 <= j < k + 1 ==> horizons[j] == horizons[1..][j - 1];
      k + 1
  }

  /** The loop over the configured horizons: one panel per horizon, in
      configuration order; the first horizon below 1 aborts the loop with
      pandas' window error. */
  function AssemblePanels(r: seq<Obs>, horizons: seq<int>, sqrt: real -> real): (res: Result<seq<Panel>>)
    ensures res.Err? <==> FirstInvalid(horizons) < |horizons|
    ensures res.Err? ==> res.error == InvalidWindow(horizons[FirstInvalid(horizons)])
    ensures res.Ok? ==> |res.value| == |horizons|
  {
    if |horizons| == 0 then Ok([])
    else
      var tail := horizons[1..];
      match PanelFor(r, horizons[0], sqrt)
      case Err(e) => Err(e)
      case Ok(p) =>
        match AssemblePanels(r, tail, sqrt)
        case Err(e) =>
          assert horizons[1 + FirstInvalid(tail)] == tail[FirstInvalid(tail)];
          Err(e)
        case Ok(ps) =>
          Ok([p] + ps)
  }

  /** When every horizon is at least 1, panel k is the panel of horizon k. */
  lemma {:induction false} AssembledPanelIs(r: seq<Obs>, horizons: seq<int>, sqrt: real -> real, k: int)
    requires forall j :: 0 <= j < |horizons| ==> horizons[j] >= 1
    requires 0 <= k < |horizons|
    ensures AssemblePanels(r, horizons, sqrt).value[k] == PanelFor(r, horizons[k], sqrt).value
  {
    if k > 0 {
      var tail := horizons[1..];
      assert forall j :: 0 <= j < |tail| ==> tail[j] == horizons[j + 1];
      AssembledPanelIs(r, tail, sqrt, k - 1);
      assert horizons[k] == tail[k - 1];
      assert AssemblePanels(r, horizons, sqrt).value[k] == AssemblePanels(r, tail, sqrt).value[k - 1];
    }
  }

  /** Every assembled panel keeps its series aligned with its dates. */
  lemma AssembledPanelsAligned(r: seq<Obs>, horizons: seq<int>, sqrt: real -> real)
    requires forall j :: 0 <= j < |horizons| ==> horizons[j] >= 1
    ensures AssemblePanels(r, horizons, sqrt).Ok?
    ensures forall k :: 0 <= k < |horizons| ==> Aligned(AssemblePanels(r, horizons, sqrt).value[k])
  {
    forall k | 0 <= k < |horizons|
      ensures Aligned(AssemblePanels(r, horizons, sqrt).value[k])
    {
      AssembledPanelIs(r, horizons, sqrt, k);
      PanelForFeatures(r, horizons[k], sqrt);
    }
  }

  /** What each assembled panel looks like: its label reads back as its
      horizon everywhere the renderer reads it; it holds one entry per
      position from h - 1 on (none for h = 1 or too short a history), dated
      like the returns there; its regime labels are -1, 0 or 1. */
  lemma AssembledPanel(r: seq<Obs>, horizons: seq<int>, sqrt: real -> real, k: int)
    requires forall j :: 0 <= j < |horizons| ==> horizons[j] >= 1
    requires 0 <= k < |horizons|
    ensures var p := AssemblePanels(r, horizons, sqrt).value[k];
            var h := horizons[k];
            && ParseHorizon(p.name) == Some(h)
            && SortKey(p.name) == h
            && ExpandLabel(p.name) == NatToString(h) + "-Day Horizon"
            && |p.index| == (if h >= 2 && |r| >= h then |r| - h + 1 else 0)
            && (forall t :: 0 <= t < |p.index| ==> t + h - 1 < |r| && p.index[t] == r[t + h - 1].date)
            && (forall t :: 0 <= t < |p.regime| ==> p.regime[t] in {-1, 0, 1})
  {
    AssembledPanelIs(r, horizons, sqrt, k);
    var h := horizons[k];
    PanelForFeatures(r, h, sqrt);
    var f := RollingFeatures(r, h, sqrt).value;
    var p := PanelOf(h, f);
    assert AssemblePanels(r, horizons, sqrt).value[k] == p;
    assert |p.index| == |f| && |p.regime| == |f|;
    HorizonLabelRoundTrip(h);
  }

  /** A non-empty panel whose volatilities are all non-negative can be
      drawn, and its uncertainties lie in [0, 1). */
  lemma NonNegativePanelDrawable(p: Panel)
    requires |p.mu| > 0 && |p.vol| > 0
    requires forall t :: 0 <= t < |p.vol| ==> p.vol[t] >= 0.0
    ensures Drawable(p)
    ensures forall t :: 0 <= t < |p.vol| ==> 0.0 <= Uncertainties(p.vol)[t] < 1.0
  {
    assert p.vol[0] <= Max(p.vol);
  }

  /** The panel of a horizon with 2 <= h <= number of returns can be drawn
      when the square root is non-negative on non-negative numbers. */
  lemma LongPanelDrawable(r: seq<Obs>, h: int, sqrt: real -> real)
    requires NonNegSqrt(sqrt)
    requires 2 <= h <= |r|
    ensures PanelFor(r, h, sqrt).Ok?
    ensures Drawable(PanelFor(r, h, sqrt).value)
    ensures forall t :: 0 <= t < |PanelFor(r, h, sqrt).value.vol| ==>
              0.0 <= Uncertainties(PanelFor(r, h, sqrt).value.vol)[t] < 1.0
  {
    PanelForFeatures(r, h, sqrt);
    VolNonNegative(r, h, sqrt);
    var f := RollingFeatures(r, h, sqrt).value;
    var p := PanelOf(h, f);
    assert |p.mu| == |p.vol| == |f| == |r| - h + 1;
    assert forall t :: 0 <= t < |p.vol| ==> p.vol[t] == f[t].vol;
    NonNegativePanelDrawable(p);
  }

  /** With a non-negative square root and enough history for every
      horizon (h >= 2, at least h returns), every assembled panel can be
      drawn: its uncertainties lie in [0, 1) and its normaliser is positive. */
  lemma AssembledPanelsDrawable(r: seq<Obs>, horizons: seq<int>, sqrt: real -> real)
    requires NonNegSqrt(sqrt)
    requires forall k :: 0 <= k < |horizons| ==> 2 <= horizons[k] <= |r|
    ensures AssemblePanels(r, horizons, sqrt).Ok?
    ensures forall k :: 0 <= k < |horizons| ==>
              var p := AssemblePanels(r, horizons, sqrt).value[k];
              && Drawable(p)
              && forall t :: 0 <= t < |p.vol| ==> 0.0 <= Uncertainties(p.vol)[t] < 1.0
  {
    forall k | 0 <= k < |horizons|
      ensures var p := AssemblePanels(r, horizons, sqrt).value[k];
              && Drawable(p)
              && forall t :: 0 <= t < |p.vol| ==> 0.0 <= Uncertainties(p.vol)[t] < 1.0
    {
      AssembledPanelIs(r, horizons, sqrt, k);
      LongPanelDrawable(r, horizons[k], sqrt);
    }
  }

  /** A horizon of 1, or one longer than the return history, yields an
      empty panel, which the renderer cannot draw: one such horizon makes
      the whole chart fail. */
  lemma ShortPanelUndrawable(r: seq<Obs>, horizons: seq<int>, sqrt: real -> real, k: int)
    requires forall j :: 0 <= j < |horizons| ==> horizons[j] >= 1
    requires 0 <= k < |horizons| && (horizons[k] == 1 || |r| < horizons[k])
    ensures !Drawable(AssemblePanels(r, horizons, sqrt).value[k])
  {
    AssembledPanelIs(r, horizons, sqrt, k);
    PanelForFeatures(r, horizons[k], sqrt);
  }

  /** main() up to the end of the loop: the returns, then one panel per
      horizon; a missing column is reported before a bad horizon. */
  function BuildPanels(table: PriceTable, horizons: seq<int>, ln: real -> real, sqrt: real -> real): Result<seq<Panel>>
  {
    match LogReturns(table, ln)
    case Err(e) => Err(e)
    case Ok(r) => AssemblePanels(r, horizons, sqrt)
  }

  /** main(): returns, panels, chart. Errors surface in pipeline order: a
      missing column first, then the first horizon below 1, then a panel
      that cannot be drawn. A chart that is produced is the chart of the
      assembled panels, one band and one tick per configured horizon. */
  method Run(table: PriceTable, horizons: seq<int>, ln: real -> real, sqrt: real -> real)
    returns (res: Result<Chart>)
    ensures LogReturns(table, ln).Err? ==> res == Err(LogReturns(table, ln).error)
    ensures LogReturns(table, ln).Ok? && FirstInvalid(horizons) < |horizons| ==>
              res == Err(InvalidWindow(horizons[FirstInvalid(horizons)]))
    ensures BuildPanels(table, horizons, ln, sqrt).Ok? ==>
              (res.Err? <==> exists k :: 0 <= k < |horizons| && !Drawable(BuildPanels(table, horizons, ln, sqrt).value[k]))
    ensures res.Ok? ==> BuildPanels(table, horizons, ln, sqrt).Ok?
    ensures res.Ok? ==> ChartOf(BuildPanels(table, horizons, ln, sqrt).value, true, res.value)
    ensures res.Ok? ==> |res.value.bands| == |horizons| && |res.value.yticklabels| == |horizons|
    ensures res.Ok? ==> forall i :: 0 <= i < |horizons| ==> res.value.bands[i].rank == i
  {
    var r := LogReturns(table, ln);
    if r.Err? {
      return Err(r.error);
    }
    var panels := AssemblePanels(r.value, horizons, sqrt);
    assert BuildPanels(table, horizons, ln, sqrt) == panels;
    if panels.Err? {
      return Err(panels.error);
    }
    assert FirstInvalid(horizons) == |horizons|;
    AssembledPanelsAligned(r.value, horizons, sqrt);
    res := Render.Render(panels.value, true);
  }
}

=== FILE: encoding.dfy ===
/** How the renderer (src/plot.py) turns one panel's numbers into drawing
    parameters: per-panel normalisation of drift and volatility, and per
    segment a colour, an opacity and a band height. Only the numbers that
    would be passed to matplotlib are modelled. */
module Encoding {
  import opened Stats
  import opened Features
  import opened Panels

  /** Guard added to every normaliser (1e-12). */
  const Eps: real := 0.000000000001
  /** Vertical scale of a band: a full-magnitude drift moves 0.85 away
      from the panel's baseline. */
  const Amplitude: real := 0.85
  /** Room kept above the top panel's baseline. */
  const BandHeight: real := 0.90
  /** Lower limit of the y axis. */
  const AxisBottom: real := -0.8

  // ---------------------------------------------------------------------
  // Normalisation
  // ---------------------------------------------------------------------

  lemma DivideBelowOne(a: real, d: real)
    requires 0.0 <= a < d
    ensures 0.0 <= a / d < 1.0
  {
  }

  lemma DivideKeepsOrder(a: real, b: real, d: real)
    requires d > 0.0
    ensures a <= b <==> a / d <= b / d
  {
    if a / d <= b / d {
      assert a == (a / d) * d && b == (b / d) * d;
    }
  }

  /** mag = |mu| / (max |mu| + 1e-12): each magnitude lies in [0, 1) and
      the normalisation keeps the order of the absolute drifts. The peak
      itself maps to max/(max + 1e-12), just below 1. */
  function Magnitudes(mu: seq<real>): (mag: seq<real>)
    requires |mu| > 0
    ensures |mag| == |mu|
    ensures forall t :: 0 <= t < |mu| ==> 0.0 <= mag[t] < 1.0
    ensures forall s, t :: 0 <= s < |mu| && 0 <= t < |mu| ==>
              (Abs(mu[s]) <= Abs(mu[t]) <==> mag[s] <= mag[t])
    ensures forall t :: 0 <= t < |mu| ==> mag[t] == Abs(mu[t]) / (Max(AbsAll(mu)) + Eps)
  {
    var d := Max(AbsAll(mu)) + Eps;
    var mag := seq(|mu|, t requires 0 <= t < |mu| => Abs(mu[t]) / d);
    assert forall t :: 0 <= t < |mu| ==> 0.0 <= mag[t] < 1.0 by {
      forall t | 0 <= t < |mu|
        ensures 0.0 <= mag[t] < 1.0
      {
        assert AbsAll(mu)[t] <= Max(AbsAll(mu));
        DivideBelowOne(Abs(mu[t]), d);
      }
    }
    assert forall s, t :: 0 <= s < |mu| && 0 <= t < |mu| ==>
             (Abs(mu[s]) <= Abs(mu[t]) <==> mag[s] <= mag[t]) by {
      forall s, t | 0 <= s < |mu| && 0 <= t < |mu|
        ensures Abs(mu[s]) <= Abs(mu[t]) <==> mag[s] <= mag[t]
      {
        assert AbsAll(mu)[0] <= Max(AbsAll(mu));
        DivideKeepsOrder(Abs(mu[s]), Abs(mu[t]), d);
      }
    }
    mag
  }

  /** The peak drift is the one whose magnitude is largest, and it maps
      to max/(max + 1e-12). */
  lemma MagnitudePeak(mu: seq<real>)
    requires |mu| > 0
    ensures exists t :: 0 <= t < |mu| &&
              Magnitudes(mu)[t] == Max(AbsAll(mu)) / (Max(AbsAll(mu)) + Eps) &&
              forall s :: 0 <= s < |mu| ==> Magnitudes(mu)[s] <= Magnitudes(mu)[t]
  {
    var m := AbsAll(mu);
    var t :| 0 <= t < |m| && m[t] == Max(m);
    assert Magnitudes(mu)[t] == Max(m) / (Max(m) + Eps);
    forall s | 0 <= s < |mu|
      ensures Magnitudes(mu)[s] <= Magnitudes(mu)[t]
    {
      assert m[s] <= Max(m);
    }
  }

  /** The volatility normaliser max(vol) + 1e-12: it lies 1e-12 above
      every volatility, and 1e-12 above one of them. */
  function UncScale(vol: seq<real>): (sc: real)
    requires |vol| > 0
    ensures forall t :: 0 <= t < |vol| ==> vol[t] + Eps <= sc
    ensures sc - Eps in vol
  {
    Max(vol) + Eps
  }

  /** unc = vol / (max vol + 1e-12): for non-negative volatilities each
      value lies in [0, 1), and whenever the normaliser is positive the
      normalisation keeps the order of the volatilities. */
  function Uncertainties(vol: seq<real>): (unc: seq<real>)
    requires |vol| > 0 && UncScale(vol) != 0.0
    ensures |unc| == |vol|
    ensures (forall t :: 0 <= t < |vol| ==> vol[t] >= 0.0) ==>
              forall t :: 0 <= t < |vol| ==> 0.0 <= unc[t] < 1.0
    ensures UncScale(vol) > 0.0 ==>
              forall s, t :: 0 <= s < |vol| && 0 <= t < |vol| ==> (vol[s] <= vol[t] <==> unc[s] <= unc[t])
    ensures forall t :: 0 <= t < |vol| ==> unc[t] == vol[t] / UncScale(vol)
  {
    var d := UncScale(vol);
    var unc := seq(|vol|, t requires 0 <= t < |vol| => vol[t] / d);
    assert (forall t :: 0 <= t < |vol| ==> vol[t] >= 0.0) ==>
             forall t :: 0 <= t < |vol| ==> 0.0 <= unc[t] < 1.0 by {
      if forall t :: 0 <= t < |vol| ==> vol[t] >= 0.0 {
        forall t | 0 <= t < |vol|
          ensures 0.0 <= unc[t] < 1.0
        {
          DivideBelowOne(vol[t], d);
        }
      }
    }
    assert d > 0.0 ==> forall s, t :: 0 <= s < |vol| && 0 <= t < |vol| ==>
             (vol[s] <= vol[t] <==> unc[s] <= unc[t]) by {
      if d > 0.0 {
        forall s, t | 0 <= s < |vol| && 0 <= t < |vol|
          ensures vol[s] <= vol[t] <==> unc[s] <= unc[t]
        {
          DivideKeepsOrder(vol[s], vol[t], d);
        }
      }
    }
    unc
  }

  // ---------------------------------------------------------------------
  // Colour and opacity
  // ---------------------------------------------------------------------

  datatype Color = Green | Red | Gray

  /** COLORS.get(r, "gray"). */
  function ColorOf(r: int): (c: Color)
    ensures c == Green <==> r == 1
    ensures c == Red <==> r == -1
  {
    if r == 1 then Green else if r == -1 then Red else Gray
  }

  /** BASE_ALPHA.get(r, 0.12). */
  function BaseAlpha(r: int): real
  {
    if r == 1 || r == -1 then 0.30 else if r == 0 then 0.10 else 0.12
  }

  /** ALPHA_GAIN.get(r, 0.30). */
  function AlphaGain(r: int): real
  {
    if r == 1 || r == -1 then 0.60 else if r == 0 then 0.25 else 0.30
  }

  /** np.clip: saturates at the nearer bound, and is the identity inside. */
  function Clip(x: real, lo: real, hi: real): (y: real)
    requires lo <= hi
    ensures lo <= y <= hi
    ensures lo <= x <= hi ==> y == x
    ensures x < lo ==> y == lo
    ensures x > hi ==> y == hi
  {
    if x < lo then lo else if x > hi then hi else x
  }

  /** Opacity of a segment: base plus gain times uncertainty, clipped to
      [0.05, 0.95], for any regime value and any uncertainty. */
  function SegmentAlpha(r: int, u: real): (a: real)
    ensures 0.05 <= a <= 0.95
  {
    Clip(BaseAlpha(r) + AlphaGain(r) * u, 0.05, 0.95)
  }

  /** More uncertainty never makes a segment more transparent. */
  lemma AlphaMonotone(r: int, u: real, v: real)
    requires u <= v
    ensures SegmentAlpha(r, u) <= SegmentAlpha(r, v)
  {
    assert AlphaGain(r) * u <= AlphaGain(r) * v;
  }

  /** For normalised uncertainties the clip never bites: the opacity is
      exactly the linear ramp. */
  lemma AlphaUnclippedOnUnitRange(r: int, u: real)
    requires 0.0 <= u <= 1.0
    ensures SegmentAlpha(r, u) == BaseAlpha(r) + AlphaGain(r) * u
  {
  }

  /** At equal normalised uncertainty a directional segment is strictly
      more opaque than a high-uncertainty one. */
  lemma DirectionalMoreOpaque(u: real)
    requires 0.0 <= u <= 1.0
    ensures SegmentAlpha(0, u) < SegmentAlpha(1, u) == SegmentAlpha(-1, u)
  {
    AlphaUnclippedOnUnitRange(0, u);
    AlphaUnclippedOnUnitRange(1, u);
  }

  // ---------------------------------------------------------------------
  // Band height
  // ---------------------------------------------------------------------

  /** np.sign. */
  /** np.sign: one of -1, 0, 1, zero only at zero, and sign(x) * x == |x|. */
  function Sign(x: real): (g: real)
    ensures g == 1.0 || g == 0.0 || g == -1.0
    ensures g == 0.0 <==> x == 0.0
    ensures g * x == Abs(x)
  {
    if x > 0.0 then 1.0 else if x < 0.0 then -1.0 else 0.0
  }

  /** y1 = i + sign(mu) * mag * 0.85. */
  function SegmentTop(rank: nat, mu: real, mag: real): (y: real)
    ensures mu == 0.0 ==> y == rank as real
    ensures mu != 0.0 ==> Abs(y - rank as real) == Abs(mag) * Amplitude
    ensures mu > 0.0 && mag >= 0.0 ==> y >= rank as real
    ensures mu < 0.0 && mag >= 0.0 ==> y <= rank as real
  {
    rank as real + Sign(mu) * mag * Amplitude
  }

  /** With a magnitude in [0, 1] the band edge stays within 0.85 of its
      baseline, on the side given by the sign of the drift, so it never
      reaches the baseline of a neighbouring panel. */
  lemma SegmentTopWithinBand(rank: nat, mu: real, mag: real)
    requires 0.0 <= mag <= 1.0
    ensures rank as real - Amplitude <= SegmentTop(rank, mu, mag) <= rank as real + Amplitude
    ensures rank as real - 1.0 < SegmentTop(rank, mu, mag) < rank as real + 1.0
    ensures mu > 0.0 ==> SegmentTop(rank, mu, mag) >= rank as real
    ensures mu < 0.0 ==> SegmentTop(rank, mu, mag) <= rank as real
    ensures mu == 0.0 ==> SegmentTop(rank, mu, mag) == rank as real
  {
  }

  /** Bands of neighbouring panels can still overlap vertically when the
      lower one rises and the upper one falls. */
  lemma NeighbouringBandsMayOverlap()
    ensures SegmentTop(1, -1.0, 0.9) < SegmentTop(0, 1.0, 0.9)
  {
  }

  /** The lowest panel's band can reach below the bottom of the y axis:
      a strongly negative drift there is cut off. */
  lemma LowestBandMayLeaveAxis(mu: real, mag: real)
    requires mu < 0.0 && mag > 0.95
    ensures SegmentTop(0, mu, mag) < AxisBottom
  {
  }

  // ---------------------------------------------------------------------
  // Segments
  // ---------------------------------------------------------------------

  /** One filled quadrilateral between consecutive dates. */
  datatype Segment = Segment(x0: Date, x1: Date, base: real, top: real, color: Color, alpha: real)

  /** The segments of one panel drawn at baseline `rank`: one per pair of
      consecutive dates, styled by the later point. */
  function Segments(p: Panel, rank: nat, mag: seq<real>, unc: seq<real>): (segs: seq<Segment>)
    requires Aligned(p) && |mag| == |p.index| && |unc| == |p.index|
    ensures |segs| == if |p.index| == 0 then 0 else |p.index| - 1
    ensures forall k :: 0 <= k < |segs| ==>
              && segs[k].x0 == p.index[k] && segs[k].x1 == p.index[k + 1]
              && segs[k].base == rank as real
              && segs[k].color == ColorOf(p.regime[k + 1])
              && 0.05 <= segs[k].alpha <= 0.95
              && segs[k].alpha == SegmentAlpha(p.regime[k + 1], unc[k + 1])
              && segs[k].top == SegmentTop(rank, p.mu[k + 1], mag[k + 1])
  {
    if |p.index| == 0 then []
    else
      seq(|p.index| - 1, k requires 0 <= k < |p.index| - 1 => SegmentAt(p, rank, mag, unc, k))
  }

  /** The segment between dates k and k + 1, styled by point k + 1. */
  function SegmentAt(p: Panel, rank: nat, mag: seq<real>, unc: seq<real>, k: nat): Segment
    requires Aligned(p) && |mag| == |p.index| && |unc| == |p.index| && k + 1 < |p.index|
  {
    Segment(p.index[k], p.index[k + 1], rank as real,
            SegmentTop(rank, p.mu[k + 1], mag[k + 1]),
            ColorOf(p.regime[k + 1]),
            SegmentAlpha(p.regime[k + 1], unc[k + 1]))
  }

  /** With normalised magnitudes every segment of a panel stays strictly
      between the neighbouring baselines. */
  lemma SegmentsStayInBand(p: Panel, rank: nat, mag: seq<real>, unc: seq<real>)
    requires Aligned(p) && |mag| == |p.index| && |unc| == |p.index|
    requires forall t :: 0 <= t < |mag| ==> 0.0 <= mag[t] <= 1.0
    ensures forall k :: 0 <= k < |Segments(p, rank, mag, unc)| ==>
              rank as real - 1.0 < Segments(p, rank, mag, unc)[k].top < rank as real + 1.0
  {
    var segs := Segments(p, rank, mag, unc);
    forall k | 0 <= k < |segs|
      ensures rank as real - 1.0 < segs[k].top < rank as real + 1.0
    {
      SegmentTopWithinBand(rank, p.mu[k + 1], mag[k + 1]);
    }
  }
}

=== FILE: features.dfy ===
/** Log returns and trailing-window features (src/features.py). The
    natural logarithm and the square root are parameters: the model makes no
    assumption about them beyond what a lemma states as a hypothesis. */
module Features {
  import opened Results
  import opened Stats

  /** A trading day; only equality and order of dates matter here. */
  type Date = int

  datatype PriceRow = PriceRow(date: Date, close: real)

  /** A price table: the names of the columns present, and the rows. A
      row's field for a column that is absent is never read. */
  datatype PriceTable = PriceTable(columns: set<string>, rows: seq<PriceRow>)

  /** One entry of a dated series. */
  datatype Obs = Obs(date: Date, value: real)

  /** One row of the feature frame: trailing mean and trailing sample
      standard deviation of the returns, dated by the window's last day. */
  datatype FeatureRow = FeatureRow(date: Date, mu: real, vol: real)

  function Values(r: seq<Obs>): (v: seq<real>)
    ensures |v| == |r|
    ensures forall i :: 0 <= i < |r| ==> v[i] == r[i].value
  {
    seq(|r|, i requires 0 <= i < |r| => r[i].value)
  }

  // ---------------------------------------------------------------------
  // compute_log_returns
  // ---------------------------------------------------------------------

  /** Differences of consecutive logarithms. */
  function LogDiffs(closes: seq<real>, ln: real -> real): (d: seq<real>)
    requires |closes| >= 1
    ensures |d| == |closes| - 1
  {
    seq(|closes| - 1, k requires 0 <= k < |closes| - 1 => ln(closes[k + 1]) - ln(closes[k]))
  }

  /** compute_log_returns: the `Date` column is checked first, then `Close`;
      the first row has no predecessor and is dropped, so n rows give n - 1
      returns (none for an empty table), each dated by its later row. */
  function LogReturns(table: PriceTable, ln: real -> real): (res: Result<seq<Obs>>)
    ensures "Date" !in table.columns ==> res == Err(MissingColumn("Date"))
    ensures "Date" in table.columns && "Close" !in table.columns ==> res == Err(MissingColumn("Close"))
    ensures res.Ok? <==> "Date" in table.columns && "Close" in table.columns
    ensures res.Ok? ==> |res.value| == if |table.rows| == 0 then 0 else |table.rows| - 1
    ensures res.Ok? ==> forall k :: 0 <= k < |res.value| ==>
              && res.value[k].date == table.rows[k + 1].date
              && res.value[k].value == ln(table.rows[k + 1].close) - ln(table.rows[k].close)
  {
    if "Date" !in table.columns then Err(MissingColumn("Date"))
    else if "Close" !in table.columns then Err(MissingColumn("Close"))
    else if |table.rows| == 0 then Ok([])
    else
      var rows := table.rows;
      Ok(seq(|rows| - 1, k requires 0 <= k < |rows| - 1 =>
        Obs(rows[k + 1].date, ln(rows[k + 1].close) - ln(rows[k].close))))
  }

  lemma {:induction false} LogDiffsTelescope(closes: seq<real>, ln: real -> real)
    requires |closes| >= 1
    ensures Sum(LogDiffs(closes, ln)) == ln(closes[|closes| - 1]) - ln(closes[0])
  {
    if |closes| > 1 {
      var n := |closes|;
      var init := closes[..n - 1];
      var d := LogDiffs(closes, ln);
      var di := LogDiffs(init, ln);
      LogDiffsTelescope(init, ln);
      assert d[..n - 2] == di by {
        assert forall k :: 0 <= k < n - 2 ==> d[k] == di[k];
      }
      assert d[n - 2] == ln(closes[n - 1]) - ln(init[n - 2]);
      assert Sum(d) == Sum(di) + d[n - 2];
    }
  }

  /** The log returns telescope: their sum is the log of the last close
      minus the log of the first, whatever the logarithm is. */
  lemma LogReturnsTelescope(table: PriceTable, ln: real -> real)
    requires "Date" in table.columns && "Close" in table.columns
    requires |table.rows| >= 1
    ensures Sum(Values(LogReturns(table, ln).value))
            == ln(table.rows[|table.rows| - 1].close) - ln(table.rows[0].close)
  {
    var rows := table.rows;
    var closes := seq(|rows|, i requires 0 <= i < |rows| => rows[i].close);
    var v := Values(LogReturns(table, ln).value);
    var d := LogDiffs(closes, ln);
    assert |v| == |d|;
    forall k | 0 <= k < |v|
      ensures v[k] == d[k]
    {
    }
    assert v == d;
    LogDiffsTelescope(closes, ln);
  }

  // ---------------------------------------------------------------------
  // rolling_features
  // ---------------------------------------------------------------------

  /** The trailing window of length `h` that ends at position `i`. */
  function Window(r: seq<Obs>, i: int, h: int): (w: seq<real>)
    requires 1 <= h <= i + 1 <= |r|
    ensures |w| == h
  {
    Values(r)[i + 1 - h .. i + 1]
  }

  /** Square roots are non-negative on non-negative arguments. */
  ghost predicate NonNegSqrt(sqrt: real -> real)
  {
    forall x :: 0.0 <= x ==> 0.0 <= sqrt(x)
  }

  /** rolling_features: a window below 1 is rejected; with h = 1 the
      single-sample standard deviation is undefined, so dropna leaves
      nothing; otherwise one row per position i >= h - 1, dated like the
      input at i, holding the mean and the ddof=1 standard deviation of the
      h returns ending at i. Positions with shorter history are absent. */
  function RollingFeatures(r: seq<Obs>, h: int, sqrt: real -> real): (res: Result<seq<FeatureRow>>)
    ensures res.Err? <==> h < 1
    ensures res.Err? ==> res.error == InvalidWindow(h)
    ensures res.Ok? && (h == 1 || |r| < h) ==> res.value == []
    ensures res.Ok? && h >= 2 && |r| >= h ==> |res.value| == |r| - h + 1
    ensures res.Ok? ==> forall k :: 0 <= k < |res.value| ==>
              && 2 <= h && k + h <= |r|
              && res.value[k].date == r[k + h - 1].date
              && res.value[k].mu == Mean(Window(r, k + h - 1, h))
              && res.value[k].vol == sqrt(SampleVariance(Window(r, k + h - 1, h)))
  {
    if h < 1 then Err(InvalidWindow(h))
    else if h == 1 || |r| < h then Ok([])
    else
      Ok(seq(|r| - h + 1, k requires 0 <= k < |r| - h + 1 =>
        var w := Window(r, k + h - 1, h);
        FeatureRow(r[k + h - 1].date, Mean(w), sqrt(SampleVariance(w)))))
  }

  /** With a square root that is non-negative where it should be, every
      `vol` of the feature frame is non-negative. */
  lemma VolNonNegative(r: seq<Obs>, h: int, sqrt: real -> real)
    requires NonNegSqrt(sqrt)
    requires h >= 1
    ensures forall k :: 0 <= k < |RollingFeatures(r, h, sqrt).value| ==>
              RollingFeatures(r, h, sqrt).value[k].vol >= 0.0
  {
    var f := RollingFeatures(r, h, sqrt).value;
    forall k | 0 <= k < |f|
      ensures f[k].vol >= 0.0
    {
      var v := SampleVariance(Window(r, k + h - 1, h));
      assert 0.0 <= v;
    }
  }

  /** Sliding a window one step right adds the entering value and removes
      the leaving one. */
  lemma SlideSum(v: seq<real>, a: int, b: int)
    requires 0 <= a < b < |v|
    ensures Sum(v[a + 1 .. b + 1]) == Sum(v[a .. b]) + v[b] - v[a]
  {
    var grown := v[a .. b + 1];
    assert grown[..|grown| - 1] == v[a .. b];
    SumFront(grown);
    assert grown[1..] == v[a + 1 .. b + 1];
  }

  /** Moving the window ending at i - 1 one step right adds return i and
      removes return i - h. */
  lemma SlideWindow(r: seq<Obs>, h: int, i: int)
    requires 1 <= h <= i < |r|
    ensures Sum(Window(r, i, h)) == Sum(Window(r, i - 1, h)) + r[i].value - r[i - h].value
  {
    SlideSum(Values(r), i - h, i);
  }

  /** The sum of the first full window, accumulated front to back. */
  method FirstWindowSum(r: seq<Obs>, h: int) returns (total: real)
    requires 1 <= h <= |r|
    ensures total == Sum(Window(r, h - 1, h))
  {
    var v := Values(r);
    total := 0.0;
    var i := 0;
    while i < h
      invariant 0 <= i <= h
      invariant total == Sum(v[..i])
    {
      assert v[..i + 1][..i] == v[..i];
      total := total + v[i];
      i := i + 1;
    }
    assert v[..h] == Window(r, h - 1, h);
  }

  /** The means of the full windows ending before position `n`. */
  function WindowMeans(r: seq<Obs>, h: int, n: int): seq<real>
    requires 1 <= h <= n <= |r|
  {
    seq(n - h + 1, k requires 0 <= k < n - h + 1 => Mean(Window(r, k + h - 1, h)))
  }

  /** Each step of the running sum extends the means by the next window's. */
  lemma WindowMeansStep(r: seq<Obs>, h: int, i: int, total: real)
    requires 1 <= h <= i < |r|
    requires total == Sum(Window(r, i - 1, h))
    ensures total + r[i].value - r[i - h].value == Sum(Window(r, i, h))
    ensures WindowMeans(r, h, i) + [(total + r[i].value - r[i - h].value) / (h as real)]
            == WindowMeans(r, h, i + 1)
  {
    SlideWindow(r, h, i);
    var before, after := WindowMeans(r, h, i), WindowMeans(r, h, i + 1);
    assert forall k :: 0 <= k < |before| ==> after[k] == before[k];
    assert after[|before|] == Mean(Window(r, i, h));
  }

  /** The rolling mean computed the way a streaming implementation does
      it: one running window sum, adding the entering return and removing
      the leaving one. It agrees with the per-window mean everywhere, and
      (unlike the standard deviation) it is defined from h = 1 on. */
  method RollingMeans(r: seq<Obs>, h: int) returns (mus: seq<real>)
    requires h >= 1
    ensures |mus| == if |r| >= h then |r| - h + 1 else 0
    ensures forall k :: 0 <= k < |mus| ==> mus[k] == Mean(Window(r, k + h - 1, h))
  {
    mus := [];
    if |r| < h {
      return;
    }
    var total := FirstWindowSum(r, h);
    mus := [total / (h as real)];
    var i := h;
    assert |WindowMeans(r, h, i)| == 1 && WindowMeans(r, h, i)[0] == Mean(Window(r, h - 1, h));
    while i < |r|
      invariant h <= i <= |r|
      invariant total == Sum(Window(r, i - 1, h))
      invariant mus == WindowMeans(r, h, i)
    {
      WindowMeansStep(r, h, i, total);
      total := total + r[i].value - r[i - h].value;
      mus := mus + [total / (h as real)];
      i := i + 1;
    }
  }
}

=== FILE: labels.dfy ===
/** Horizon labels: how main.py prints a horizon ("{h}D") and how
    src/plot.py reads a label back (sort key, minimum marker spacing, y-tick
    text). Every reader first strips surrounding whitespace. */
module HorizonLabels {
  import opened Results

  /** Sort key of a label that does not parse as "<digits>D" (10**9). */
  const Unparsed: int := 1_000_000_000

  // ---------------------------------------------------------------------
  // str.strip
  // ---------------------------------------------------------------------

  /** The ASCII whitespace characters str.strip removes. */
  predicate IsSpace(c: char)
  {
    c == ' ' || c == '\t' || c == '\n' || c == '\r' || c == '\U{000B}' || c == '\U{000C}'
  }

  /** Drops leading whitespace: the result is a suffix, everything dropped
      is whitespace, and what is left does not start with whitespace. */
  function TrimStart(s: string): (t: string)
    ensures |t| <= |s| && t == s[|s| - |t|..]
    ensures forall k :: 0 <= k < |s| - |t| ==> IsSpace(s[k])
    ensures |t| > 0 ==> !IsSpace(t[0])
  {
    if |s| > 0 && IsSpace(s[0]) then TrimStart(s[1..]) else s
  }

  /** Drops trailing whitespace: the result is a prefix, everything dropped
      is whitespace, and what is left does not end with whitespace. */
  function TrimEnd(s: string): (t: string)
    ensures |t| <= |s| && t == s[..|t|]
    ensures forall k :: |t| <= k < |s| ==> IsSpace(s[k])
    ensures |t| > 0 ==> !IsSpace(t[|t| - 1])
  {
    if |s| > 0 && IsSpace(s[|s| - 1]) then TrimEnd(s[..|s| - 1]) else s
  }

  /** str.strip: neither end of the result is whitespace. */
  function Strip(s: string): (t: string)
    ensures |t| <= |s|
    ensures |t| > 0 ==> !IsSpace(t[0]) && !IsSpace(t[|t| - 1])
  {
    TrimEnd(TrimStart(s))
  }

  /** str.strip removes only the surrounding whitespace: the result is a
      contiguous slice of the input with nothing but whitespace around it. */
  lemma StripSlice(s: string)
    ensures exists a, b :: 0 <= a <= b <= |s| && Strip(s) == s[a..b]
              && (forall k :: 0 <= k < a ==> IsSpace(s[k]))
              && (forall k :: b <= k < |s| ==> IsSpace(s[k]))
  {
    var u := TrimStart(s);
    var t := TrimEnd(u);
    var a := |s| - |u|;
    var b := a + |t|;
    assert u == s[a..] && t == u[..|t|];
    assert t == s[a..b] by {
      forall k | 0 <= k < |t|
        ensures t[k] == s[a + k]
      {
        assert t[k] == u[k] && u[k] == s[a + k];
      }
    }
    forall k | b <= k < |s|
      ensures IsSpace(s[k])
    {
      assert s[k] == u[k - a];
    }
    assert Strip(s) == t;
  }

  /** A string that neither starts nor ends with whitespace is unchanged
      by str.strip. */
  lemma StripUnchanged(s: string)
    requires |s| > 0 && !IsSpace(s[0]) && !IsSpace(s[|s| - 1])
    ensures Strip(s) == s
  {
    assert TrimStart(s) == s;
    assert TrimEnd(s) == s;
  }

  // ---------------------------------------------------------------------
  // Decimal digits
  // ---------------------------------------------------------------------

  predicate IsDigit(c: char)
  {
    '0' <= c <= '9'
  }

  predicate AllDigits(s: string)
  {
    forall i :: 0 <= i < |s| ==> IsDigit(s[i])
  }

  /** int() of a string of ASCII digits (leading zeros allowed). */
  function DigitsValue(s: string): nat
    requires AllDigits(s)
  {
    if |s| == 0 then 0
    else DigitsValue(s[..|s| - 1]) * 10 + (s[|s| - 1] as int - '0' as int)
  }

  function DigitChar(d: nat): (c: char)
    requires d < 10
    ensures IsDigit(c) && c as int - '0' as int == d
  {
    ('0' as int + d) as char
  }

  /** Python's decimal rendering of a non-negative int: digits only, no
      leading zero, and reading it back gives the number. */
  function NatToString(n: nat): (s: string)
    ensures |s| >= 1 && AllDigits(s)
    ensures |s| > 1 ==> s[0] != '0'
    ensures DigitsValue(s) == n
  {
    if n < 10 then [DigitChar(n)]
    else
      var prefix := NatToString(n / 10);
      var s := prefix + [DigitChar(n % 10)];
      assert s[..|s| - 1] == prefix;
      s
  }

  /** A value read from a digit string is at least its first digit. */
  lemma {:induction false} DigitsValueAtLeastLead(s: string)
    requires |s| >= 1 && AllDigits(s)
    ensures DigitsValue(s) >= s[0] as int - '0' as int
  {
    if |s| > 1 {
      DigitsValueAtLeastLead(s[..|s| - 1]);
    }
  }

  /** The other direction of the decimal round trip: a digit string with
      no leading zero is the rendering of its own value. */
  lemma {:induction false} DigitsRoundTrip(s: string)
    requires |s| >= 1 && AllDigits(s)
    requires |s| > 1 ==> s[0] != '0'
    ensures NatToString(DigitsValue(s)) == s
  {
    var n := DigitsValue(s);
    if |s| > 1 {
      var prefix := s[..|s| - 1];
      DigitsValueAtLeastLead(prefix);
      assert n >= 10;
      assert n / 10 == DigitsValue(prefix);
      DigitsRoundTrip(prefix);
      assert s == prefix + [s[|s| - 1]];
    }
  }

  // ---------------------------------------------------------------------
  // Reading and writing horizon labels
  // ---------------------------------------------------------------------

  /** The label main.py gives horizon `h`: f"{h}D". */
  function HorizonLabel(h: nat): string
  {
    NatToString(h) + "D"
  }

  /** The renderer's test `lbl.endswith("D") and lbl[:-1].isdigit()` on the
      stripped label, with the number `int(lbl[:-1])` when it passes. */
  function ParseHorizon(lbl: string): Option<nat>
  {
    var s := Strip(lbl);
    if |s| >= 2 && s[|s| - 1] == 'D' && AllDigits(s[..|s| - 1])
    then Some(DigitsValue(s[..|s| - 1]))
    else None
  }

  /** The panel sort key: the parsed horizon, or 10**9 for any other label. */
  function SortKey(lbl: string): (k: int)
    ensures k >= 0
    ensures k == Unparsed <==> ParseHorizon(lbl).None? || ParseHorizon(lbl) == Some(Unparsed)
    ensures k != Unparsed ==> ParseHorizon(lbl) == Some(k)
  {
    match ParseHorizon(lbl)
    case Some(n) => n
    case None => Unparsed
  }

  /** Minimum index spacing between transition markers for a panel. */
  function MinGap(lbl: string): (g: int)
    ensures 10 <= g <= 30
  {
    var s := Strip(lbl);
    if s == "5D" then 10 else if s == "20D" then 20 else if s == "60D" then 30 else 15
  }

  /** Slicing a concatenation at the seam gives back its two parts. */
  lemma SplitConcat(a: string, b: string)
    ensures (a + b)[..|a|] == a && (a + b)[|a|..] == b
  {
  }

  /** The y-tick text of a panel: "<digits>-Day Horizon" for a parsed label
      (the digits as written, leading zeros kept), otherwise the stripped
      label itself, or "Horizon" when that is empty. Never empty. */
  function ExpandLabel(lbl: string): (t: string)
    ensures |t| > 0
    ensures ParseHorizon(lbl).None? && Strip(lbl) != "" ==> t == Strip(lbl)
    ensures ParseHorizon(lbl).None? && Strip(lbl) == "" ==> t == "Horizon"
    ensures ParseHorizon(lbl).Some? ==>
              && |t| > 12 && t[|t| - 12..] == "-Day Horizon"
              && t[..|t| - 12] + "D" == Strip(lbl)
  {
    var s := Strip(lbl);
    if ParseHorizon(lbl).Some? then
      var digits := s[..|s| - 1];
      var suffix := "-Day Horizon";
      assert |suffix| == 12;
      SplitConcat(digits, suffix);
      assert s == digits + "D";
      digits + suffix
    else if s != "" then s
    else "Horizon"
  }

  /** A label built by main.py survives stripping, parses back to its
      horizon, sorts by it, and expands to "<h>-Day Horizon". */
  lemma HorizonLabelRoundTrip(h: nat)
    ensures Strip(HorizonLabel(h)) == HorizonLabel(h)
    ensures ParseHorizon(HorizonLabel(h)) == Some(h)
    ensures SortKey(HorizonLabel(h)) == h
    ensures ExpandLabel(HorizonLabel(h)) == NatToString(h) + "-Day Horizon"
  {
    var s := HorizonLabel(h);
    assert !IsSpace(s[0]) && !IsSpace(s[|s| - 1]);
    assert TrimStart(s) == s;
    assert TrimEnd(s) == s;
    assert s[..|s| - 1] == NatToString(h);
  }

  /** Conversely, a label that parses to `n` and carries no leading zero is,
      once stripped, exactly the label main.py builds for `n`. */
  lemma ParsedLabelIsHorizonLabel(lbl: string, n: nat)
    requires ParseHorizon(lbl) == Some(n)
    requires Strip(lbl)[0] != '0' || |Strip(lbl)| == 2
    ensures Strip(lbl) == HorizonLabel(n)
  {
    var s := Strip(lbl);
    DigitsRoundTrip(s[..|s| - 1]);
    assert s == s[..|s| - 1] + "D";
  }

  /** The y-tick text of any label that parses to `n` without a leading
      zero is "<n>-Day Horizon". */
  lemma ExpandParsed(lbl: string, n: nat)
    requires ParseHorizon(lbl) == Some(n)
    requires Strip(lbl)[0] != '0' || |Strip(lbl)| == 2
    ensures ExpandLabel(lbl) == NatToString(n) + "-Day Horizon"
  {
    ParsedLabelIsHorizonLabel(lbl, n);
    var s := Strip(lbl);
    assert s[..|s| - 1] == NatToString(n);
  }

  /** int() ignores a leading zero. */
  lemma {:induction false} DigitsValueLeadingZero(d: string)
    requires AllDigits(d)
    ensures AllDigits("0" + d) && DigitsValue("0" + d) == DigitsValue(d)
  {
    var z := "0" + d;
    if |d| == 0 {
      assert z[..0] == "";
    } else {
      var init := d[..|d| - 1];
      DigitsValueLeadingZero(init);
      assert z[..|z| - 1] == "0" + init;
      assert z[|z| - 1] == d[|d| - 1];
    }
  }

  /** A run of digits followed by "D" needs no stripping, parses to the
      digits' value, and its tick text keeps the digits as written. */
  lemma DigitsLabel(d: string)
    requires |d| >= 1 && AllDigits(d)
    ensures Strip(d + "D") == d + "D"
    ensures ParseHorizon(d + "D") == Some(DigitsValue(d))
    ensures ExpandLabel(d + "D") == d + "-Day Horizon"
  {
    var s := d + "D";
    StripUnchanged(s);
    assert s[..|s| - 1] == d;
  }

  /** The tick text keeps leading zeros: "0" + "<n>D" parses to n, yet reads
      "0<n>-Day Horizon", never "<n>-Day Horizon". */
  lemma ExpandKeepsLeadingZeros(n: nat)
    ensures ParseHorizon("0" + HorizonLabel(n)) == Some(n)
    ensures ExpandLabel("0" + HorizonLabel(n)) == "0" + NatToString(n) + "-Day Horizon"
    ensures ExpandLabel("0" + HorizonLabel(n)) != NatToString(n) + "-Day Horizon"
  {
    var d := "0" + NatToString(n);
    DigitsValueLeadingZero(NatToString(n));
    DigitsLabel(d);
    assert "0" + HorizonLabel(n) == d + "D";
  }

  /** Two horizons get the same label only if they are equal. */
  lemma HorizonLabelInjective(h: nat, k: nat)
    requires HorizonLabel(h) == HorizonLabel(k)
    ensures h == k
  {
    HorizonLabelRoundTrip(h);
    HorizonLabelRoundTrip(k);
  }

  /** The spacing table seen from main.py's labels: 5, 20 and 60 days get
      10, 20 and 30 points, every other horizon gets 15. */
  lemma HorizonGaps(h: nat)
    ensures MinGap(HorizonLabel(h)) == (if h == 5 then 10 else if h == 20 then 20
                                        else if h == 60 then 30 else 15)
  {
    HorizonLabelRoundTrip(h);
    SameLabel(h, 5);
    SameLabel(h, 20);
    SameLabel(h, 60);
  }

  /** `h` gets the label of the fixed horizon `k` exactly when h == k. */
  lemma SameLabel(h: nat, k: nat)
    ensures HorizonLabel(h) == HorizonLabel(k) <==> h == k
  {
    if HorizonLabel(h) == HorizonLabel(k) {
      HorizonLabelInjective(h, k);
    }
  }
}

=== FILE: markers.dfy ===
/** Transition-marker selection in the renderer (src/plot.py): a greedy
    pass over the regime changes of one panel that keeps a change only if
    it is far enough from the last kept one and enters or leaves regime 0. */
module Markers {
  import opened HorizonLabels

  /** `last_mark` before any marker is drawn (-10**9). */
  const NoMark: int := -1_000_000_000

  /** regime.ne(regime.shift(1)): index 0 compares against NaN and always
      counts as a change. */
  predicate IsChange(regime: seq<int>, c: nat)
    requires c < |regime|
  {
    c == 0 || regime[c] != regime[c - 1]
  }

  /** `prev_r`: the previous label, or the label itself at index 0. */
  function PrevLabel(regime: seq<int>, c: nat): int
    requires c < |regime|
  {
    if c >= 1 then regime[c - 1] else regime[c]
  }

  /** A change that the uncertainty filter lets through: regime 0 on the
      previous or the current side. */
  predicate Eligible(regime: seq<int>, c: nat)
    requires c < |regime|
  {
    IsChange(regime, c) && (PrevLabel(regime, c) == 0 || regime[c] == 0)
  }

  /** No marker before `c` lies within `gap` of it. */
  ghost predicate Clear(marks: seq<nat>, c: nat, gap: int)
  {
    forall k :: 0 <= k < |marks| && marks[k] < c ==> marks[k] + gap <= c
  }

  /** What the greedy pass produces, as a property of its output: every
      marker is an eligible change, markers are at least `gap` apart (so
      strictly increasing), and an index is marked exactly when it is an
      eligible change with no earlier marker within `gap`. */
  ghost predicate GreedyMarkers(regime: seq<int>, gap: int, marks: seq<nat>)
  {
    && (forall k :: 0 <= k < |marks| ==> marks[k] < |regime| && Eligible(regime, marks[k]))
    && (forall k, l :: 0 <= k < l < |marks| ==> marks[k] + gap <= marks[l])
    && (forall c: nat :: c < |regime| ==> (c in marks <==> Eligible(regime, c) && Clear(marks, c, gap)))
  }

  /** GreedyMarkers restricted to the indices below `i` already visited. */
  ghost predicate GreedyUpTo(regime: seq<int>, gap: int, marks: seq<nat>, i: nat)
  {
    && (forall k :: 0 <= k < |marks| ==> marks[k] < i && marks[k] < |regime| && Eligible(regime, marks[k]))
    && (forall k, l :: 0 <= k < l < |marks| ==> marks[k] + gap <= marks[l])
    && (forall c: nat :: c < i && c < |regime| ==> (c in marks <==> Eligible(regime, c) && Clear(marks, c, gap)))
  }

  /** Drawing a marker at `i` keeps the greedy invariant. */
  lemma MarkStep(regime: seq<int>, gap: int, marks: seq<nat>, i: nat)
    requires i < |regime| && GreedyUpTo(regime, gap, marks, i)
    requires Eligible(regime, i) && Clear(marks, i, gap)
    ensures GreedyUpTo(regime, gap, marks + [i], i + 1)
  {
    var marks' := marks + [i];
    forall k | 0 <= k < |marks'|
      ensures marks'[k] < i + 1 && marks'[k] < |regime| && Eligible(regime, marks'[k])
    {
      if k < |marks| {
        assert marks'[k] == marks[k];
      }
    }
    forall k, l | 0 <= k < l < |marks'|
      ensures marks'[k] + gap <= marks'[l]
    {
      assert marks'[k] == marks[k];
      if l < |marks| {
        assert marks'[l] == marks[l];
      }
    }
    forall c: nat | c < i + 1 && c < |regime|
      ensures c in marks' <==> Eligible(regime, c) && Clear(marks', c, gap)
    {
      ClearAppend(marks, i, c, gap);
    }
  }

  /** A marker at `i` does not affect whether an index up to `i` is clear. */
  lemma ClearAppend(marks: seq<nat>, i: nat, c: nat, gap: int)
    requires c <= i
    ensures Clear(marks + [i], c, gap) <==> Clear(marks, c, gap)
  {
    var marks' := marks + [i];
    assert forall k :: 0 <= k < |marks| ==> marks'[k] == marks[k];
  }

  /** Skipping index `i` keeps the greedy invariant when `i` is not an
      eligible change clear of earlier markers. */
  lemma SkipStep(regime: seq<int>, gap: int, marks: seq<nat>, i: nat)
    requires i < |regime| && GreedyUpTo(regime, gap, marks, i)
    requires !(Eligible(regime, i) && Clear(marks, i, gap))
    ensures GreedyUpTo(regime, gap, marks, i + 1)
  {
  }

  /** Checking the distance to `last_mark` alone is checking the distance
      to every earlier marker, since the last marker is the largest. */
  lemma ClearIffFarFromLast(regime: seq<int>, gap: int, marks: seq<nat>, i: nat, lastMark: int)
    requires 10 <= gap <= 30
    requires GreedyUpTo(regime, gap, marks, i)
    requires lastMark == if |marks| == 0 then NoMark else marks[|marks| - 1]
    ensures Clear(marks, i, gap) <==> i - lastMark >= gap
  {
    if |marks| > 0 && i - lastMark >= gap {
      forall k | 0 <= k < |marks| && marks[k] < i
        ensures marks[k] + gap <= i
      {
        if k < |marks| - 1 {
          assert marks[k] + gap <= marks[|marks| - 1];
        }
      }
    }
  }

  /** The loop's test at change candidate `i`, given the last marker so
      far: a change, at least `gap` after `last_mark`, entering or leaving
      regime 0. */
  predicate Takes(regime: seq<int>, gap: int, i: nat, lastMark: int)
    requires i < |regime|
  {
    IsChange(regime, i) && i - lastMark >= gap && (PrevLabel(regime, i) == 0 || regime[i] == 0)
  }

  /** The markers the loop still draws from index `i` on, when the last
      marker drawn before `i` is `lastMark`. */
  function MarksFrom(regime: seq<int>, gap: int, i: nat, lastMark: int): seq<nat>
    decreases |regime| - i
  {
    if i >= |regime| then []
    else if Takes(regime, gap, i, lastMark) then [i] + MarksFrom(regime, gap, i + 1, i)
    else MarksFrom(regime, gap, i + 1, lastMark)
  }

  /** The markers after one more step of the loop, and the new
      `last_mark`. */
  function NextMarks(regime: seq<int>, gap: int, marks: seq<nat>, i: nat, lastMark: int): seq<nat>
    requires i < |regime|
  {
    if Takes(regime, gap, i, lastMark) then marks + [i] else marks
  }

  function NextLast(regime: seq<int>, gap: int, i: nat, lastMark: int): int
    requires i < |regime|
  {
    if Takes(regime, gap, i, lastMark) then i else lastMark
  }

  /** One step of the loop moves one index from the markers still to be
      drawn to the markers drawn so far. */
  lemma MarksFromStep(regime: seq<int>, gap: int, marks: seq<nat>, i: nat, lastMark: int)
    requires i < |regime|
    ensures NextMarks(regime, gap, marks, i, lastMark) + MarksFrom(regime, gap, i + 1, NextLast(regime, gap, i, lastMark))
            == marks + MarksFrom(regime, gap, i, lastMark)
  {
    if Takes(regime, gap, i, lastMark) {
      assert marks + [i] + MarksFrom(regime, gap, i + 1, i) == marks + ([i] + MarksFrom(regime, gap, i + 1, i));
    }
  }

  /** One iteration of the marker loop keeps the greedy invariant: the
      loop's test against `last_mark` marks exactly the eligible changes
      clear of every earlier marker. */
  lemma GreedyStep(regime: seq<int>, gap: int, marks: seq<nat>, i: nat, lastMark: int)
    requires 10 <= gap <= 30 && i < |regime|
    requires GreedyUpTo(regime, gap, marks, i)
    requires lastMark == if |marks| == 0 then NoMark else marks[|marks| - 1]
    ensures GreedyUpTo(regime, gap, NextMarks(regime, gap, marks, i, lastMark), i + 1)
    ensures var m := NextMarks(regime, gap, marks, i, lastMark);
            NextLast(regime, gap, i, lastMark) == if |m| == 0 then NoMark else m[|m| - 1]
  {
    ClearIffFarFromLast(regime, gap, marks, i, lastMark);
    if Takes(regime, gap, i, lastMark) {
      MarkStep(regime, gap, marks, i);
    } else {
      SkipStep(regime, gap, marks, i);
    }
  }

  /** Running the loop on from any state that satisfies the greedy
      invariant ends in a state that satisfies it for every index. */
  lemma {:induction false} GreedyRest(regime: seq<int>, gap: int, marks: seq<nat>, i: nat, lastMark: int)
    requires 10 <= gap <= 30 && i <= |regime|
    requires GreedyUpTo(regime, gap, marks, i)
    requires lastMark == if |marks| == 0 then NoMark else marks[|marks| - 1]
    ensures GreedyUpTo(regime, gap, marks + MarksFrom(regime, gap, i, lastMark), |regime|)
    decreases |regime| - i
  {
    if i < |regime| {
      var marks', lastMark' := NextMarks(regime, gap, marks, i, lastMark), NextLast(regime, gap, i, lastMark);
      GreedyStep(regime, gap, marks, i, lastMark);
      GreedyRest(regime, gap, marks', i + 1, lastMark');
      MarksFromStep(regime, gap, marks, i, lastMark);
      assert marks' + MarksFrom(regime, gap, i + 1, lastMark') == marks + MarksFrom(regime, gap, i, lastMark);
    } else {
      assert marks + MarksFrom(regime, gap, i, lastMark) == marks;
    }
  }

  /** A pass that has visited every index has produced GreedyMarkers; with
      a positive gap the markers strictly increase, and index 0, which
      always counts as a change, is marked exactly when its regime is 0. */
  lemma GreedyComplete(regime: seq<int>, gap: int, marks: seq<nat>)
    requires gap >= 1
    requires GreedyUpTo(regime, gap, marks, |regime|)
    ensures GreedyMarkers(regime, gap, marks)
    ensures forall k, l :: 0 <= k < l < |marks| ==> marks[k] < marks[l]
    ensures |regime| > 0 ==> (0 in marks <==> regime[0] == 0)
  {
    if |regime| > 0 {
      assert Eligible(regime, 0) <==> regime[0] == 0;
      assert Clear(marks, 0, gap);
    }
  }

  /** The marker loop of plot_regime_horizon_map for a panel labelled
      `name`. Visiting every index and skipping non-changes is the same as
      visiting the change indices in order. */
  method TransitionMarkers(name: string, regime: seq<int>) returns (marks: seq<nat>)
    ensures GreedyMarkers(regime, MinGap(name), marks)
    ensures forall k, l :: 0 <= k < l < |marks| ==> marks[k] < marks[l]
    ensures |regime| > 0 ==> (0 in marks <==> regime[0] == 0)
  {
    var gap := MinGap(name);
    var lastMark := NoMark;
    marks := [];
    var i: nat := 0;
    while i < |regime|
      invariant i <= |regime|
      invariant marks + MarksFrom(regime, gap, i, lastMark) == MarksFrom(regime, gap, 0, NoMark)
    {
      MarksFromStep(regime, gap, marks, i, lastMark);
      marks, lastMark := NextMarks(regime, gap, marks, i, lastMark), NextLast(regime, gap, i, lastMark);
      i := i + 1;
    }
    assert marks == MarksFrom(regime, gap, 0, NoMark);
    GreedyRest(regime, gap, [], 0, NoMark);
    assert [] + MarksFrom(regime, gap, 0, NoMark) == marks;
    GreedyComplete(regime, gap, marks);
  }

  // ---------------------------------------------------------------------
  // The greedy characterisation has exactly one solution
  // ---------------------------------------------------------------------

  /** Two greedy marker lists agree on every index below `c`. */
  lemma {:induction false} AgreeBelow(regime: seq<int>, gap: int, a: seq<nat>, b: seq<nat>, c: nat)
    requires GreedyMarkers(regime, gap, a) && GreedyMarkers(regime, gap, b)
    requires c <= |regime|
    ensures forall d: nat :: d < c ==> (d in a <==> d in b)
  {
    if c > 0 {
      AgreeBelow(regime, gap, a, b, c - 1);
      var d := c - 1;
      assert Clear(a, d, gap) ==> Clear(b, d, gap) by {
        if Clear(a, d, gap) {
          forall k | 0 <= k < |b| && b[k] < d
            ensures b[k] + gap <= d
          {
            assert b[k] in b;
            var j :| 0 <= j < |a| && a[j] == b[k];
          }
        }
      }
      assert Clear(b, d, gap) ==> Clear(a, d, gap) by {
        if Clear(b, d, gap) {
          forall k | 0 <= k < |a| && a[k] < d
            ensures a[k] + gap <= d
          {
            assert a[k] in a;
            var j :| 0 <= j < |b| && b[j] == a[k];
          }
        }
      }
    }
  }

  /** The tail of a strictly increasing sequence holds every element but
      the first. */
  lemma TailElements(a: seq<nat>)
    requires |a| > 0
    requires forall k, l :: 0 <= k < l < |a| ==> a[k] < a[l]
    ensures forall x :: x in a[1..] <==> x in a && x != a[0]
  {
    forall x
      ensures x in a[1..] <==> x in a && x != a[0]
    {
      if x in a[1..] {
        var k :| 0 <= k < |a| - 1 && a[1..][k] == x;
        assert a[k + 1] == x;
      }
      if x in a && x != a[0] {
        var k :| 0 <= k < |a| && a[k] == x;
        assert a[1..][k - 1] == x;
      }
    }
  }

  /** The first element of a strictly increasing sequence is its least. */
  lemma HeadIsLeast(a: seq<nat>)
    requires |a| > 0
    requires forall k, l :: 0 <= k < l < |a| ==> a[k] < a[l]
    ensures forall k :: 0 <= k < |a| ==> a[0] <= a[k]
  {
    forall k | 0 < k < |a|
      ensures a[0] < a[k]
    {
    }
  }

  /** Two strictly increasing sequences with the same elements are equal. */
  lemma {:induction false} IncreasingSameElements(a: seq<nat>, b: seq<nat>)
    requires forall k, l :: 0 <= k < l < |a| ==> a[k] < a[l]
    requires forall k, l :: 0 <= k < l < |b| ==> b[k] < b[l]
    requires forall x :: x in a <==> x in b
    ensures a == b
  {
    if |a| == 0 {
      assert multiset(b) == multiset{};
    } else {
      var x0 := a[0];
      assert x0 in a;
      var i :| 0 <= i < |b| && b[i] == x0;
      var y0 := b[0];
      assert y0 in b;
      var j :| 0 <= j < |a| && a[j] == y0;
      HeadIsLeast(a);
      HeadIsLeast(b);
      assert x0 <= a[j] && y0 <= b[i];
      TailElements(a);
      TailElements(b);
      var a', b' := a[1..], b[1..];
      assert forall k, l :: 0 <= k < l < |a'| ==> a'[k] < a'[l] by {
        forall k, l | 0 <= k < l < |a'|
          ensures a'[k] < a'[l]
        {
          assert a'[k] == a[k + 1] && a'[l] == a[l + 1];
        }
      }
      assert forall k, l :: 0 <= k < l < |b'| ==> b'[k] < b'[l] by {
        forall k, l | 0 <= k < l < |b'|
          ensures b'[k] < b'[l]
        {
          assert b'[k] == b[k + 1] && b'[l] == b[l + 1];
        }
      }
      IncreasingSameElements(a', b');
      assert a == [x0] + a' && b == [y0] + b';
    }
  }

  /** GreedyMarkers admits exactly one marker list, so the contract of
      TransitionMarkers fixes its output completely. */
  lemma GreedyMarkersUnique(regime: seq<int>, gap: int, a: seq<nat>, b: seq<nat>)
    requires gap >= 1
    requires GreedyMarkers(regime, gap, a) && GreedyMarkers(regime, gap, b)
    ensures a == b
  {
    AgreeBelow(regime, gap, a, b, |regime|);
    forall x
      ensures x in a <==> x in b
    {
      if x in a {
        var k :| 0 <= k < |a| && a[k] == x;
      }
      if x in b {
        var k :| 0 <= k < |b| && b[k] == x;
      }
    }
    IncreasingSameElements(a, b);
  }
}

=== FILE: order.dfy ===
/** Panel ordering in the renderer (src/plot.py): Python's stable `sorted`
    with the horizon parsed from the label as key and 10**9 for any label
    that does not parse. A stable sort is a sort by (key, original
    position); it is modelled as insertion of positions into that order. */
module PanelOrder {
  import opened Results
  import opened HorizonLabels
  import opened Panels

  function PanelKeys(panels: seq<Panel>): (keys: seq<int>)
    ensures |keys| == |panels|
    ensures forall k :: 0 <= k < |panels| ==> keys[k] == SortKey(panels[k].name)
  {
    seq(|panels|, k requires 0 <= k < |panels| => SortKey(panels[k].name))
  }

  /** Position `a` goes before position `b`: smaller key, or equal key and
      earlier in the input. A strict total order on positions. */
  predicate Before(keys: seq<int>, a: nat, b: nat)
    requires a < |keys| && b < |keys|
  {
    keys[a] < keys[b] || (keys[a] == keys[b] && a < b)
  }

  ghost predicate InRange(s: seq<nat>, n: nat)
  {
    forall k :: 0 <= k < |s| ==> s[k] < n
  }

  ghost predicate OrderedBy(keys: seq<int>, s: seq<nat>)
    requires InRange(s, |keys|)
  {
    forall p, q :: 0 <= p < q < |s| ==> Before(keys, s[p], s[q])
  }

  /** Inserts position `x` into a sequence of distinct positions ordered by
      `Before`. */
  function InsertPosition(keys: seq<int>, x: nat, s: seq<nat>): (r: seq<nat>)
    requires x < |keys| && InRange(s, |keys|) && OrderedBy(keys, s) && x !in s
    ensures |r| == |s| + 1
    ensures forall y :: y in r <==> y == x || y in s
    ensures InRange(r, |keys|) && OrderedBy(keys, r)
  {
    if |s| == 0 then [x]
    else if Before(keys, x, s[0]) then
      var r := [x] + s;
      assert forall q :: 0 < q < |r| ==> r[q] == s[q - 1];
      r
    else
      var tail := s[1..];
      assert InRange(tail, |keys|) && OrderedBy(keys, tail) by {
        assert forall q :: 0 <= q < |tail| ==> tail[q] == s[q + 1];
      }
      var rest := InsertPosition(keys, x, tail);
      assert x != s[0] by { assert s[0] in s; }
      HeadBeforeRest(keys, x, s, rest);
      ConsOrdered(keys, s[0], rest);
      assert s == [s[0]] + tail;
      [s[0]] + rest
  }

  /** The head of an ordered sequence goes before every element of the
      insertion of a later position `x` into its tail. */
  lemma HeadBeforeRest(keys: seq<int>, x: nat, s: seq<nat>, rest: seq<nat>)
    requires x < |keys| && 0 < |s| && InRange(s, |keys|) && OrderedBy(keys, s)
    requires Before(keys, s[0], x)
    requires InRange(rest, |keys|)
    requires forall y :: y in rest <==> y == x || y in s[1..]
    ensures forall q :: 0 <= q < |rest| ==> Before(keys, s[0], rest[q])
  {
    forall q | 0 <= q < |rest|
      ensures Before(keys, s[0], rest[q])
    {
      assert rest[q] in rest;
      if rest[q] != x {
        var j :| 0 <= j < |s[1..]| && s[1..][j] == rest[q];
        assert s[j + 1] == rest[q];
      }
    }
  }

  /** Prefixing an ordered sequence with a position that goes before all of
      it keeps it ordered. */
  lemma ConsOrdered(keys: seq<int>, a: nat, rest: seq<nat>)
    requires a < |keys| && InRange(rest, |keys|) && OrderedBy(keys, rest)
    requires forall q :: 0 <= q < |rest| ==> Before(keys, a, rest[q])
    ensures InRange([a] + rest, |keys|) && OrderedBy(keys, [a] + rest)
  {
    var r := [a] + rest;
    assert forall q :: 0 < q < |r| ==> r[q] == rest[q - 1];
  }

  /** The positions 0 .. n-1 in `Before` order. */
  function StableOrder(keys: seq<int>, n: nat): (perm: seq<nat>)
    requires n <= |keys|
    ensures |perm| == n
    ensures forall i :: i in perm <==> 0 <= i < n
    ensures InRange(perm, |keys|) && OrderedBy(keys, perm)
  {
    if n == 0 then []
    else
      var prefix := StableOrder(keys, n - 1);
      InsertPosition(keys, n - 1, prefix)
  }

  /** The order in which `sorted` visits the input panels: every position
      exactly once, ascending by sort key, and positions with equal keys in
      their input order (stability). */
  function Order(panels: seq<Panel>): (perm: seq<nat>)
    ensures |perm| == |panels|
    ensures forall i :: i in perm <==> 0 <= i < |panels|
    ensures forall k :: 0 <= k < |perm| ==> perm[k] < |panels|
    ensures forall p, q :: 0 <= p < q < |perm| ==>
              || SortKey(panels[perm[p]].name) < SortKey(panels[perm[q]].name)
              || (SortKey(panels[perm[p]].name) == SortKey(panels[perm[q]].name) && perm[p] < perm[q])
    ensures InRange(perm, |panels|) && OrderedBy(PanelKeys(panels), perm)
  {
    var keys := PanelKeys(panels);
    var perm := StableOrder(keys, |panels|);
    assert forall p, q :: 0 <= p < q < |perm| ==> Before(keys, perm[p], perm[q]);
    perm
  }

  /** The panels in render order: a rearrangement of the input, ascending
      by sort key. */
  function SortPanels(panels: seq<Panel>): (sorted: seq<Panel>)
    ensures |sorted| == |panels|
    ensures forall k :: 0 <= k < |panels| ==> sorted[k] == panels[Order(panels)[k]]
    ensures forall j :: 0 <= j < |panels| ==> panels[j] in sorted
    ensures forall p, q :: 0 <= p < q < |sorted| ==> SortKey(sorted[p].name) <= SortKey(sorted[q].name)
  {
    var perm := Order(panels);
    var sorted := seq(|panels|, k requires 0 <= k < |panels| => panels[perm[k]]);
    forall j | 0 <= j < |panels|
      ensures panels[j] in sorted
    {
      assert j in perm;
      var k :| 0 <= k < |perm| && perm[k] == j;
      assert sorted[k] == panels[j];
    }
    sorted
  }

  /** Input panel `i` is drawn before input panel `j`: whatever render
      positions they get, i's is the earlier one. */
  ghost predicate DrawnBefore(panels: seq<Panel>, i: int, j: int)
  {
    forall p, q :: 0 <= p < |panels| && 0 <= q < |panels| && Order(panels)[p] == i && Order(panels)[q] == j ==> p < q
  }

  /** In a sequence of positions ordered by `Before`, a position that goes
      before another one sits earlier. */
  lemma BeforeSitsEarlier(keys: seq<int>, perm: seq<nat>, p: int, q: int)
    requires InRange(perm, |keys|) && OrderedBy(keys, perm)
    requires 0 <= p < |perm| && 0 <= q < |perm| && Before(keys, perm[p], perm[q])
    ensures p < q
  {
  }

  /** A panel that goes before another in (key, position) order is drawn
      before it. */
  lemma BeforeDrawnBefore(panels: seq<Panel>, i: int, j: int)
    requires 0 <= i < |panels| && 0 <= j < |panels|
    requires Before(PanelKeys(panels), i, j)
    ensures DrawnBefore(panels, i, j)
  {
    var keys := PanelKeys(panels);
    var perm := Order(panels);
    forall p, q | 0 <= p < |panels| && 0 <= q < |panels| && perm[p] == i && perm[q] == j
      ensures p < q
    {
      BeforeSitsEarlier(keys, perm, p, q);
    }
  }

  /** A panel with a strictly smaller key is drawn before one with a larger
      key. */
  lemma SmallerKeyEarlier(panels: seq<Panel>, i: int, j: int)
    requires 0 <= i < |panels| && 0 <= j < |panels|
    requires SortKey(panels[i].name) < SortKey(panels[j].name)
    ensures DrawnBefore(panels, i, j)
  {
    BeforeDrawnBefore(panels, i, j);
  }

  /** Every panel whose label parses to a horizon below 10**9 is drawn
      before every panel whose label does not parse. */
  lemma ParsedBeforeUnparsed(panels: seq<Panel>, i: int, j: int, n: nat)
    requires 0 <= i < |panels| && 0 <= j < |panels|
    requires ParseHorizon(panels[i].name) == Some(n) && n < Unparsed
    requires ParseHorizon(panels[j].name).None?
    ensures DrawnBefore(panels, i, j)
  {
    assert SortKey(panels[i].name) == n;
    assert SortKey(panels[j].name) == Unparsed;
    SmallerKeyEarlier(panels, i, j);
  }

  /** Among themselves, panels with equal keys (in particular all the
      unparsed ones) keep their input order. */
  lemma EqualKeysKeepInputOrder(panels: seq<Panel>, i: int, j: int)
    requires 0 <= i < j < |panels|
    requires SortKey(panels[i].name) == SortKey(panels[j].name)
    ensures DrawnBefore(panels, i, j)
  {
    BeforeDrawnBefore(panels, i, j);
  }

  /** A label that parses to more than 10**9 is drawn after the unparsed
      ones: the sentinel is an ordinary key. */
  lemma HugeHorizonNotFirst(panels: seq<Panel>, i: int, j: int, n: nat)
    requires 0 <= i < |panels| && 0 <= j < |panels|
    requires ParseHorizon(panels[i].name) == Some(n) && n > Unparsed
    requires ParseHorizon(panels[j].name).None?
    ensures DrawnBefore(panels, j, i)
  {
    assert SortKey(panels[i].name) == n;
    assert SortKey(panels[j].name) == Unparsed;
    SmallerKeyEarlier(panels, j, i);
  }
}

=== FILE: panels.dfy ===
/** The per-horizon bundle main.py hands to the renderer. */
module Panels {
  import opened Features

  /** A horizon panel: its label ("label" in the dictionary), the dates,
      and the drift, volatility and regime series. */
  datatype Panel = Panel(name: string, index: seq<Date>, mu: seq<real>, vol: seq<real>, regime: seq<int>)

  /** The four series have one entry per date. */
  predicate Aligned(p: Panel)
  {
    |p.mu| == |p.index| && |p.vol| == |p.index| && |p.regime| == |p.index|
  }
}

=== FILE: regime.dfy ===
/** The regime classifier (src/regime.py): one global volatility
    threshold, the median of the whole `vol` column, then a pointwise
    three-way label per row. */
module Regime {
  import opened Stats
  import opened Features

  function Vols(f: seq<FeatureRow>): (v: seq<real>)
    ensures |v| == |f|
    ensures forall i :: 0 <= i < |f| ==> v[i] == f[i].vol
  {
    seq(|f|, i requires 0 <= i < |f| => f[i].vol)
  }

  /** The threshold: the median of every `vol` in the frame, not a rolling
      one, so an early label depends on later volatility. */
  function VolThreshold(f: seq<FeatureRow>): real
    requires |f| > 0
  {
    Median(Vols(f))
  }

  /** The labelling rule at one row: high uncertainty at or above the
      threshold, otherwise the sign of the drift, zero drift counting as
      positive. */
  function Label(mu: real, vol: real, thr: real): (l: int)
    ensures l in {-1, 0, 1}
    ensures l == 0 <==> vol >= thr
    ensures l != 0 ==> (l == 1 <==> mu >= 0.0)
  {
    if vol >= thr then 0 else if mu >= 0.0 then 1 else -1
  }

  /** infer_regime: one label per feature row, same order. An empty frame
      yields no labels (its median is NaN but nothing is compared to it). */
  function InferRegime(f: seq<FeatureRow>): (labels: seq<int>)
    ensures |labels| == |f|
    ensures forall i :: 0 <= i < |f| ==> labels[i] in {-1, 0, 1}
    ensures forall i :: 0 <= i < |f| ==> (labels[i] == 0 <==> f[i].vol >= VolThreshold(f))
    ensures forall i :: 0 <= i < |f| ==>
              (labels[i] == 1 <==> f[i].vol < VolThreshold(f) && f[i].mu >= 0.0)
    ensures forall i :: 0 <= i < |f| ==>
              (labels[i] == -1 <==> f[i].vol < VolThreshold(f) && f[i].mu < 0.0)
  {
    if |f| == 0 then []
    else
      var thr := VolThreshold(f);
      seq(|f|, i requires 0 <= i < |f| => Label(f[i].mu, f[i].vol, thr))
  }

  /** Number of occurrences of `v` in a label sequence. */
  function CountOf(labels: seq<int>, v: int): nat
  {
    if |labels| == 0 then 0 else (if labels[0] == v then 1 else 0) + CountOf(labels[1..], v)
  }

  /** Counting the 0 labels is counting the volatilities at or above the
      threshold, when the two agree position by position. */
  lemma {:induction false} ZeroCountMatches(labels: seq<int>, vols: seq<real>, thr: real)
    requires |labels| == |vols|
    requires forall i :: 0 <= i < |vols| ==> (labels[i] == 0 <==> vols[i] >= thr)
    ensures CountOf(labels, 0) == CountAtLeast(vols, thr)
  {
    if |labels| > 0 {
      ZeroCountMatches(labels[1..], vols[1..], thr);
    }
  }

  /** At least half of the rows are labelled high-uncertainty: at least
      half of the volatilities are at or above their own median. */
  lemma AtLeastHalfUncertain(f: seq<FeatureRow>)
    ensures 2 * CountOf(InferRegime(f), 0) >= |f|
  {
    if |f| > 0 {
      ZeroCountMatches(InferRegime(f), Vols(f), VolThreshold(f));
    }
  }

  /** When every row has the same volatility, the median is that value and
      every row is labelled 0, whatever its drift. */
  lemma ConstantVolAllUncertain(f: seq<FeatureRow>, c: real)
    requires forall i :: 0 <= i < |f| ==> f[i].vol == c
    ensures forall i :: 0 <= i < |f| ==> InferRegime(f)[i] == 0
  {
    if |f| > 0 {
      var thr := VolThreshold(f);
      var j :| 0 <= j < |f| && thr <= Vols(f)[j];
      assert thr <= c;
    }
  }

  /** The row with the largest volatility is always labelled 0, so a
      non-empty frame always has a high-uncertainty row. */
  lemma PeakVolUncertain(f: seq<FeatureRow>, i: int)
    requires 0 <= i < |f|
    requires forall j :: 0 <= j < |f| ==> f[j].vol <= f[i].vol
    ensures InferRegime(f)[i] == 0
  {
    var thr := VolThreshold(f);
    var j :| 0 <= j < |f| && thr <= Vols(f)[j];
  }
}

=== FILE: render.dfy ===
/** plot_regime_horizon_map (src/plot.py) without matplotlib: the chart is
    the list of bands with their segments and transition markers, the y
    ticks and their texts, and the y limits. The COVID-19 annotation, the
    legend, titles and saving are not modelled. */
module Render {
  import opened Results
  import opened Features
  import opened HorizonLabels
  import opened Panels
  import opened PanelOrder
  import opened Encoding
  import opened Markers

  /** What is drawn for one panel at baseline `rank`. */
  datatype Band = Band(rank: nat, name: string, segments: seq<Segment>,
                       markers: seq<nat>, markerTimes: seq<Date>)

  datatype Chart = Chart(bands: seq<Band>, yticks: seq<int>, yticklabels: seq<string>,
                         ylo: real, yhi: real)

  /** np.nanmax needs a non-empty series, and the volatility normaliser
      must not be exactly zero. */
  predicate Drawable(p: Panel)
  {
    |p.mu| > 0 && |p.vol| > 0 && UncScale(p.vol) != 0.0
  }

  /** The band drawn for `p` at `rank`. */
  ghost predicate BandOf(p: Panel, rank: nat, showTransitions: bool, band: Band)
    requires Aligned(p) && Drawable(p)
  {
    && band.rank == rank
    && band.name == p.name
    && band.segments == Segments(p, rank, Magnitudes(p.mu), Uncertainties(p.vol))
    && |band.markerTimes| == |band.markers|
    && (forall k :: 0 <= k < |band.markers| ==>
          band.markers[k] < |p.index| && band.markerTimes[k] == p.index[band.markers[k]])
    && (if showTransitions then GreedyMarkers(p.regime, MinGap(p.name), band.markers)
        else band.markers == [])
  }

  /** Draws one panel: its segments, then (when enabled) its markers. */
  method DrawPanel(p: Panel, rank: nat, showTransitions: bool) returns (band: Band)
    requires Aligned(p) && Drawable(p)
    ensures BandOf(p, rank, showTransitions, band)
    ensures |band.segments| == |p.index| - 1
    ensures forall k :: 0 <= k < |band.markers| - 1 ==> band.markers[k] + MinGap(p.name) <= band.markers[k + 1]
  {
    var segs := Segments(p, rank, Magnitudes(p.mu), Uncertainties(p.vol));
    var marks: seq<nat> := [];
    if showTransitions {
      marks := TransitionMarkers(p.name, p.regime);
    }
    var times := seq(|marks|, k requires 0 <= k < |marks| && marks[k] < |p.index| => p.index[marks[k]]);
    band := Band(rank, p.name, segs, marks, times);
  }

  /** The y-tick texts of the panels in render order. */
  function TickLabels(sorted: seq<Panel>): (labels: seq<string>)
    ensures |labels| == |sorted|
    ensures forall k :: 0 <= k < |sorted| ==> labels[k] == ExpandLabel(sorted[k].name)
  {
    seq(|sorted|, k requires 0 <= k < |sorted| => ExpandLabel(sorted[k].name))
  }

  /** Appending the band of the next panel keeps every earlier band. */
  lemma BandsExtend(sorted: seq<Panel>, bands: seq<Band>, band: Band, showTransitions: bool)
    requires |bands| < |sorted|
    requires forall k :: 0 <= k <= |bands| ==> Aligned(sorted[k]) && Drawable(sorted[k])
    requires forall k :: 0 <= k < |bands| ==> BandOf(sorted[k], k, showTransitions, bands[k])
    requires BandOf(sorted[|bands|], |bands|, showTransitions, band)
    ensures forall k :: 0 <= k <= |bands| ==> BandOf(sorted[k], k, showTransitions, (bands + [band])[k])
  {
    var all := bands + [band];
    forall k | 0 <= k <= |bands|
      ensures BandOf(sorted[k], k, showTransitions, all[k])
    {
      if k < |bands| {
        assert all[k] == bands[k];
      }
    }
  }

  /** Draws the panels in the given order, failing at the first one that
      cannot be drawn. */
  method DrawAll(sorted: seq<Panel>, showTransitions: bool) returns (res: Result<seq<Band>>)
    requires forall k :: 0 <= k < |sorted| ==> Aligned(sorted[k])
    ensures res.Err? <==> exists k :: 0 <= k < |sorted| && !Drawable(sorted[k])
    ensures res.Ok? ==> |res.value| == |sorted|
    ensures res.Ok? ==> forall i :: 0 <= i < |sorted| ==> BandOf(sorted[i], i, showTransitions, res.value[i])
  {
    var bands: seq<Band> := [];
    var i := 0;
    while i < |sorted|
      invariant 0 <= i <= |sorted|
      invariant |bands| == i
      invariant forall k :: 0 <= k < i ==> Drawable(sorted[k])
      invariant forall k :: 0 <= k < i ==> BandOf(sorted[k], k, showTransitions, bands[k])
    {
      var p := sorted[i];
      if !Drawable(p) {
        var e := if |p.mu| == 0 then EmptyPanel(p.name) else ZeroScale(p.name);
        return Err(e);
      }
      var band := DrawPanel(p, i, showTransitions);
      BandsExtend(sorted, bands, band, showTransitions);
      bands := bands + [band];
      i := i + 1;
    }
    return Ok(bands);
  }

  /** The chart drawn for `panels`: band i is the i-th panel in sorted
      order, drawn at baseline i, tick i sits at i and reads that panel's
      expanded label, and the y axis spans [-0.8, n - 1 + 0.9]. */
  ghost predicate ChartOf(panels: seq<Panel>, showTransitions: bool, chart: Chart)
  {
    var sorted := SortPanels(panels);
    var n := |panels|;
    && |chart.bands| == n
    && (forall i :: 0 <= i < n ==>
          && Aligned(sorted[i]) && Drawable(sorted[i])
          && BandOf(sorted[i], i, showTransitions, chart.bands[i]))
    && chart.yticks == seq(n, i => i)
    && chart.yticklabels == TickLabels(sorted)
    && chart.ylo == AxisBottom
    && chart.yhi == (n - 1) as real + BandHeight
  }

  /** The whole chart. It fails, as np.nanmax does, when some panel is
      empty (or its volatility normaliser is zero); otherwise it is the
      chart of the panels. */
  method Render(panels: seq<Panel>, showTransitions: bool) returns (res: Result<Chart>)
    requires forall k :: 0 <= k < |panels| ==> Aligned(panels[k])
    ensures res.Err? <==> exists k :: 0 <= k < |panels| && !Drawable(panels[k])
    ensures res.Ok? ==> ChartOf(panels, showTransitions, res.value)
  {
    var sorted := SortPanels(panels);
    var n := |sorted|;
    SortedPanelsAligned(panels);
    SortedPanelsDrawable(panels);
    var drawn := DrawAll(sorted, showTransitions);
    match drawn
    case Err(e) =>
      res := Err(e);
    case Ok(bands) =>
      res := Ok(Chart(bands, seq(n, i => i), TickLabels(sorted), AxisBottom, (n - 1) as real + BandHeight));
  }

  lemma SortedPanelsAligned(panels: seq<Panel>)
    requires forall k :: 0 <= k < |panels| ==> Aligned(panels[k])
    ensures forall k :: 0 <= k < |panels| ==> Aligned(SortPanels(panels)[k])
  {
    var sorted := SortPanels(panels);
    forall k | 0 <= k < |panels|
      ensures Aligned(sorted[k])
    {
      assert sorted[k] == panels[Order(panels)[k]];
    }
  }

  /** Sorting neither hides nor introduces an undrawable panel. */
  lemma SortedPanelsDrawable(panels: seq<Panel>)
    ensures (exists k :: 0 <= k < |panels| && !Drawable(panels[k]))
        <==> (exists k :: 0 <= k < |panels| && !Drawable(SortPanels(panels)[k]))
  {
    var sorted := SortPanels(panels);
    if k :| 0 <= k < |panels| && !Drawable(panels[k]) {
      assert panels[k] in sorted;
      var j :| 0 <= j < |sorted| && sorted[j] == panels[k];
      assert !Drawable(sorted[j]);
    }
    if k :| 0 <= k < |panels| && !Drawable(sorted[k]) {
      assert sorted[k] == panels[Order(panels)[k]];
    }
  }
}

=== FILE: results.dfy ===
/** Failure-carrying values shared by every stage of the pipeline. The
    pipeline raises Python exceptions; here each raise becomes an `Err`. */
module Results {

  /** A value that may be absent (pandas' NaN-dropping made explicit). */
  datatype Option<+T> = None | Some(value: T)

  /** The ways a stage of the pipeline can fail. */
  datatype Error =
    | MissingColumn(column: string)   // compute_log_returns: a required column is absent
    | InvalidWindow(h: int)           // pandas rejects a rolling window below 1
    | EmptyPanel(name: string)        // np.nanmax over a zero-length series raises
    | ZeroScale(name: string)         // the uncertainty normaliser is exactly zero

  datatype Result<+T> = Ok(value: T) | Err(error: Error)
}

=== FILE: stats.dfy ===
/** Summary statistics over finite sequences of reals, as pandas computes
    them: sums, the mean, the ddof=1 sample variance, maxima, and the median
    (sort, then take the middle value or the average of the two middle
    values). Floating-point rounding is not modelled. */
module Stats {

  // ---------------------------------------------------------------------
  // Sums, mean and sample variance
  // ---------------------------------------------------------------------

  /** Sum of a sequence, accumulated from the back. */
  function Sum(xs: seq<real>): real
  {
    if |xs| == 0 then 0.0 else Sum(xs[..|xs| - 1]) + xs[|xs| - 1]
  }

  /** The same sum, peeled from the front. */
  lemma {:induction false} SumFront(xs: seq<real>)
    requires |xs| > 0
    ensures Sum(xs) == xs[0] + Sum(xs[1..])
  {
    if |xs| > 1 {
      var init := xs[..|xs| - 1];
      SumFront(init);
      assert init[1..] == xs[1..][..|xs[1..]| - 1];
    }
  }

  function Mean(xs: seq<real>): real
    requires |xs| > 0
  {
    Sum(xs) / (|xs| as real)
  }

  /** Sum of squared deviations of every element from `m`. */
  function SumSqDev(xs: seq<real>, m: real): (r: real)
    ensures r >= 0.0
  {
    if |xs| == 0 then 0.0
    else
      var d := xs[|xs| - 1] - m;
      assert d * d >= 0.0;
      SumSqDev(xs[..|xs| - 1], m) + d * d
  }

  /** The ddof=1 sample variance; pandas leaves it undefined (NaN) for fewer
      than two samples, so it is only defined from two on. */
  function SampleVariance(xs: seq<real>): (v: real)
    requires |xs| >= 2
    ensures v >= 0.0
  {
    SumSqDev(xs, Mean(xs)) / ((|xs| - 1) as real)
  }

  // ---------------------------------------------------------------------
  // Maxima and absolute values
  // ---------------------------------------------------------------------

  function Abs(x: real): real
  {
    if x < 0.0 then -x else x
  }

  function AbsAll(xs: seq<real>): (ys: seq<real>)
    ensures |ys| == |xs|
    ensures forall i :: 0 <= i < |xs| ==> ys[i] == Abs(xs[i])
  {
    seq(|xs|, i requires 0 <= i < |xs| => Abs(xs[i]))
  }

  /** np.nanmax of a non-empty NaN-free sequence: an upper bound that is
      attained. */
  function Max(xs: seq<real>): (m: real)
    requires |xs| > 0
    ensures forall i :: 0 <= i < |xs| ==> xs[i] <= m
    ensures exists i :: 0 <= i < |xs| && xs[i] == m
  {
    if |xs| == 1 then xs[0]
    else
      var rest := Max(xs[..|xs| - 1]);
      var last := xs[|xs| - 1];
      assert forall i :: 0 <= i < |xs| - 1 ==> xs[i] == xs[..|xs| - 1][i];
      if last >= rest then last else rest
  }

  // ---------------------------------------------------------------------
  // Sorting and counting
  // ---------------------------------------------------------------------

  ghost predicate Sorted(s: seq<real>)
  {
    forall i, j :: 0 <= i <= j < |s| ==> s[i] <= s[j]
  }

  /** Inserts `x` into the sorted sequence `s`, before the first element it
      does not exceed. */
  function Insert(x: real, s: seq<real>): (r: seq<real>)
    requires Sorted(s)
    ensures |r| == |s| + 1
    ensures multiset(r) == multiset(s) + multiset{x}
    ensures Sorted(r)
  {
    if |s| == 0 then [x]
    else if x <= s[0] then [x] + s
    else
      var tail := s[1..];
      var rest := Insert(x, tail);
      assert forall k :: 0 <= k < |tail| ==> s[0] <= tail[k] by {
        assert forall k :: 0 <= k < |tail| ==> tail[k] == s[k + 1];
      }
      BoundedByMultiset(s[0], x, tail, rest);
      ConsSorted(s[0], rest);
      assert s == [s[0]] + tail;
      [s[0]] + rest
  }

  /** Prefixing a sorted sequence with a lower bound of it keeps it sorted. */
  lemma ConsSorted(lo: real, s: seq<real>)
    requires Sorted(s)
    requires forall k :: 0 <= k < |s| ==> lo <= s[k]
    ensures Sorted([lo] + s)
  {
    var r := [lo] + s;
    assert forall i :: 0 < i < |r| ==> r[i] == s[i - 1];
  }

  /** A lower bound of `x` and of every element of `a` bounds every element
      of a sequence `b` holding `x` and the elements of `a`. */
  lemma BoundedByMultiset(lo: real, x: real, a: seq<real>, b: seq<real>)
    requires lo <= x
    requires forall k :: 0 <= k < |a| ==> lo <= a[k]
    requires multiset(b) == multiset(a) + multiset{x}
    ensures forall k :: 0 <= k < |b| ==> lo <= b[k]
  {
    forall k | 0 <= k < |b|
      ensures lo <= b[k]
    {
      assert b[k] in multiset(b);
      if b[k] != x {
        assert b[k] in a;
      }
    }
  }

  /** Insertion sort: an ascending permutation of `xs`. */
  function Sort(xs: seq<real>): (s: seq<real>)
    ensures |s| == |xs|
    ensures multiset(s) == multiset(xs)
    ensures Sorted(s)
  {
    if |xs| == 0 then []
    else
      assert xs == [xs[0]] + xs[1..];
      Insert(xs[0], Sort(xs[1..]))
  }

  /** Number of elements that are at least `m`. */
  function CountAtLeast(xs: seq<real>, m: real): nat
  {
    if |xs| == 0 then 0 else (if xs[0] >= m then 1 else 0) + CountAtLeast(xs[1..], m)
  }

  /** Number of elements that are at most `m`. */
  function CountAtMost(xs: seq<real>, m: real): nat
  {
    if |xs| == 0 then 0 else (if xs[0] <= m then 1 else 0) + CountAtMost(xs[1..], m)
  }

  lemma {:induction false} InsertCounts(x: real, s: seq<real>, m: real)
    requires Sorted(s)
    ensures CountAtLeast(Insert(x, s), m) == CountAtLeast(s, m) + (if x >= m then 1 else 0)
    ensures CountAtMost(Insert(x, s), m) == CountAtMost(s, m) + (if x <= m then 1 else 0)
  {
    if |s| == 0 {
    } else if x <= s[0] {
      assert ([x] + s)[1..] == s;
    } else {
      InsertCounts(x, s[1..], m);
      assert ([s[0]] + Insert(x, s[1..]))[1..] == Insert(x, s[1..]);
    }
  }

  /** Sorting keeps both counts: they only depend on the multiset. */
  lemma {:induction false} SortCounts(xs: seq<real>, m: real)
    ensures CountAtLeast(Sort(xs), m) == CountAtLeast(xs, m)
    ensures CountAtMost(Sort(xs), m) == CountAtMost(xs, m)
  {
    if |xs| > 0 {
      SortCounts(xs[1..], m);
      InsertCounts(xs[0], Sort(xs[1..]), m);
    }
  }

  /** If every element from position `k` on is at least `m`, at least
      `|s| - k` elements are. */
  lemma {:induction false} SuffixAtLeast(s: seq<real>, k: nat, m: real)
    requires k <= |s|
    requires forall j :: k <= j < |s| ==> s[j] >= m
    ensures CountAtLeast(s, m) >= |s| - k
  {
    if |s| > 0 {
      if k == 0 {
        SuffixAtLeast(s[1..], 0, m);
      } else {
        SuffixAtLeast(s[1..], k - 1, m);
      }
    }
  }

  /** If every element before position `k` is at most `m`, at least `k`
      elements are. */
  lemma {:induction false} PrefixAtMost(s: seq<real>, k: nat, m: real)
    requires k <= |s|
    requires forall j :: 0 <= j < k ==> s[j] <= m
    ensures CountAtMost(s, m) >= k
  {
    if k > 0 {
      PrefixAtMost(s[1..], k - 1, m);
    }
  }

  // ---------------------------------------------------------------------
  // Median
  // ---------------------------------------------------------------------

  /** The middle of a sorted sequence: every element from position n/2 on
      is at least it, every element before position (n+1)/2 is at most it. */
  function Middle(s: seq<real>): (m: real)
    requires |s| > 0 && Sorted(s)
    ensures forall j :: |s| / 2 <= j < |s| ==> m <= s[j]
    ensures forall j :: 0 <= j < (|s| + 1) / 2 ==> s[j] <= m
  {
    var n := |s|;
    if n % 2 == 1 then s[n / 2]
    else
      assert s[n / 2 - 1] <= s[n / 2];
      (s[n / 2 - 1] + s[n / 2]) / 2.0
  }

  /** pandas' Series.median: the middle element of the sorted values, or
      the average of the two middle ones for an even count. The contract is
      the defining property of a median: at least half of the elements lie
      on either side of it, and it lies between two of them. */
  function Median(xs: seq<real>): (m: real)
    requires |xs| > 0
    ensures 2 * CountAtLeast(xs, m) >= |xs|
    ensures 2 * CountAtMost(xs, m) >= |xs|
    ensures exists i :: 0 <= i < |xs| && xs[i] <= m
    ensures exists j :: 0 <= j < |xs| && m <= xs[j]
  {
    var s := Sort(xs);
    var n := |s|;
    var m := Middle(s);
    SortCounts(xs, m);
    SuffixAtLeast(s, n / 2, m);
    PrefixAtMost(s, (n + 1) / 2, m);
    assert s[n / 2] in multiset(xs);
    assert s[(n - 1) / 2] in multiset(xs);
    m
  }
}
